=== FILE: README.md ===
# Personal finance tracker — ledger and reporting core in Dafny

This project models the ledger and reporting engine of the
`PersonalFinanceTracker` class. The tracker keeps five relations: categories,
transactions, budgets, goals and accounts. It appends transactions and posts
their signed amount to the primary account. It answers filtered, ordered
transaction queries and summarises income and expenses. It also breaks
spending down per category, monitors budgets, tracks savings goals, builds
monthly reports, derives "insights" from a fixed decision table, and
imports rows one by one, creating categories by name as needed.

Every SQL statement is read as a pure function over immutable relations
(`Schema.Ledger`). Mutating operations return the new ledger, plus the id or
the error the call ends with. A few modelling choices apply throughout:

- Ids are AUTOINCREMENT keys and nothing is deleted, so a new row's id is
  the relation's length plus one. Among transactions, a later row never
  has an earlier `created_at` stamp than an earlier row. The stamp has
  one-second resolution, so rows created in the same second tie on it, and
  the model breaks that tie by id (see "## Left out").
- Every read joins transactions with their categories. A transaction whose
  category id does not resolve takes part in no read (`Schema.Join`).
- Amounts are Dafny `real`s. Dates are `(year, month, day)` triples ordered
  lexicographically, which is the string order of ISO-8601 dates with
  four-digit years.
- `datetime.date.today()` and SQLite's `date('now')` are parameters
  (`today`, `now`).

Modules, by file:

| file | module | models |
|---|---|---|
| common.dfy | Common | `Option`, `Result` and the error kinds |
| dates.dfy | Dates | the calendar: leap years, month ends, day steps |
| sorting.dfy | Sorting | ORDER BY as an insertion sort over a total preorder, and LIMIT |
| schema.dfy | Schema | the relations, the CHECK constraints, the join, and WHERE/SUM |
| categories.dfy | CategoryRegistry | default-category seeding and find-or-create by name |
| transactions.dfy | TransactionLedger | append with the balance update, and the transaction query |
| reports.dfy | Reporting | balance summary, category spending, monthly report |
| budgets.dfy | BudgetMonitor | budget creation and budget status |
| goals.dfy | GoalTracker | goals, progress updates, goal listing |
| insights.dfy | InsightGenerator | the insight decision table |
| importer.dfy | Importer | the per-row logic of the CSV import |

The model follows the code, including where it departs from what its
docstrings and naming suggest:

- No amount is checked for being positive.
- A goal target of zero is accepted, and its progress is then NULL.
- Goals without a target date sort first within a priority, because SQLite
  puts NULL first in ascending order.
- Budget spend is matched by category name rather than by id. Because names
  are unique, the two agree (`BudgetMonitor.SpendByNameIsSpendById`).
- An unknown category id makes `add_transaction` fail after its row was
  committed (see Findings).

## Model

| member | source | states |
|---|---|---|
| CategoryRegistry.DefaultCategories | personalfinancetracker.py:129-145 | the seeded rows are the ten (name, type, color) rows in order, with ids 1..10 and the default budget limit |
| CategoryRegistry.DefaultsDistinct | personalfinancetracker.py:129-140 | the ten default names are pairwise distinct; the first three are income and the other seven expense |
| CategoryRegistry.PopulateDefaultCategories | personalfinancetracker.py:124-146 | an empty registry receives exactly the defaults; a non-empty ledger is returned unchanged; the other relations never change |
| CategoryRegistry.SeedingIdempotent | personalfinancetracker.py:124-146 | seeding twice equals seeding once, and seeding keeps ids sequential and names unique |
| CategoryRegistry.CreateCategory | personalfinancetracker.py:500-506 | a new category takes the next id, the given name and type, and the column defaults for color and budget limit; nothing else changes; well-formedness is kept |
| CategoryRegistry.FindOrCreate | personalfinancetracker.py:494-508 | an existing name returns its row and leaves the ledger unchanged; an absent name with a valid type creates exactly the row `CreateCategory` builds (next id, that name and type, default color and budget limit); it fails iff the name is absent and the type violates the CHECK constraint, with that type as the error; the result carries the name and is in the registry |
| Schema.ParseKind | personalfinancetracker.py:53 | the category type is accepted iff it is "income" or "expense" |
| Schema.ParsePeriod | personalfinancetracker.py:84 | the budget period is accepted iff it is "weekly", "monthly" or "yearly" |
| Schema.FindCategory | personalfinancetracker.py:173-174 | a found category has the id and is in the registry; none is found iff no row has that id |
| Schema.FindCategoryByName | personalfinancetracker.py:496-498 | a found category has the name; none is found iff no row has that name |
| Schema.FindCategoryById | personalfinancetracker.py:51 | with AUTOINCREMENT ids, the category with id k is the k-th row, and ids outside 1..n find nothing |
| Schema.FindRegistered | personalfinancetracker.py:173-174 | with AUTOINCREMENT ids, looking up a registered category's id finds that category |
| Schema.Join | personalfinancetracker.py:196-197 | every joined row pairs a transaction with the category of its id; every transaction whose category resolves is joined |
| Schema.JoinAppend | personalfinancetracker.py:196-197 | appending a transaction appends its joined row when its category resolves, and nothing otherwise |
| Schema.Select | personalfinancetracker.py:212-213 | a row is selected iff it is present and satisfies every condition |
| Schema.SelectAppend | personalfinancetracker.py:212-213 | selection distributes over concatenation |
| Schema.SelectAgree | personalfinancetracker.py:334 | conditions that agree on every row select the same rows |
| Schema.SumAppend | personalfinancetracker.py:229 | a sum over concatenated rows is the sum of the two sums |
| Schema.TotalAppend | personalfinancetracker.py:229-233 | one more row raises a conditional total by its amount iff it meets the condition |
| Schema.TotalEmpty | personalfinancetracker.py:229 | COALESCE gives 0 over no rows |
| Schema.TotalMonotone | personalfinancetracker.py:251-265 | with non-negative amounts, a total is non-negative and at most the total under a weaker condition |
| Dates.DaysInMonth | personalfinancetracker.py:400-405 | every month has 28 to 31 days |
| Dates.NextDay | personalfinancetracker.py:400-405 | the next day is a valid date strictly after the given one |
| Dates.PrevDay | personalfinancetracker.py:405 | subtracting one day gives a valid, strictly earlier date whose next day is the original |
| Dates.NextMonthStart | personalfinancetracker.py:400-403 | the start of the next month is a valid first-of-month, with December rolling into January |
| Dates.MonthEnd | personalfinancetracker.py:400-406 | the computed last day is in the month, between 28 and 31, valid, and followed by the next month's first day |
| Dates.MonthWindowIsMonth | personalfinancetracker.py:398-406 | a valid date lies in [day 1, last day] iff it is in that month |
| Dates.MonthZeroWindowIsEmpty | personalfinancetracker.py:398-406 | month 0 passes the date arithmetic but its window holds no valid date |
| Dates.DecemberEnd | personalfinancetracker.py:400-401 | December 2024 ends on the 31st and the next month starts on 2025-01-01 |
| Dates.FebruaryEnd | personalfinancetracker.py:402-405 | February ends on the 28th in 2023 and 1900 and on the 29th in 2024 and 2000 |
| Dates.LeqIsTotalOrder | personalfinancetracker.py:203-206 | date comparison is reflexive, total, antisymmetric and transitive |
| Sorting.Insert | personalfinancetracker.py:215 | inserting into a sorted sequence keeps it sorted and adds exactly the element |
| Sorting.SortBy | personalfinancetracker.py:215 | the result is a sorted permutation of the input |
| Sorting.PermutationMembers | personalfinancetracker.py:215 | a permutation has the same members |
| Sorting.Take | personalfinancetracker.py:217-218 | LIMIT n keeps a prefix of length n, or all rows when there are fewer |
| Sorting.SortedPrefix | personalfinancetracker.py:217-218 | a prefix of a sorted sequence is sorted |
| TransactionLedger.UpdateBalance | personalfinancetracker.py:170-186 | it fails iff the category does not resolve; with an account, only the first account's balance moves, by +amount for income and -amount otherwise; with no account nothing changes |
| TransactionLedger.Signed | personalfinancetracker.py:180-185 | an income category adds the amount and an expense category subtracts it |
| TransactionLedger.AddTransaction | personalfinancetracker.py:148-168 | exactly one transaction is appended whether or not the call fails; it carries the amount, the category id and the date (today when none is given); it returns the new id iff the category resolves; on success only the first account's balance changes, by the signed amount, and every other column and account stays; on failure the accounts are unchanged; well-formedness is kept |
| TransactionLedger.UnknownCategoryLeavesOrphan | personalfinancetracker.py:160-174 | an unknown category id fails, yet the ledger has grown by one row |
| TransactionLedger.AddTransactionChecked | personalfinancetracker.py:148-186 | it fails iff the category does not resolve, and then leaves the ledger untouched; otherwise it is the append above |
| TransactionLedger.OrphanSurfacesLater | personalfinancetracker.py:160-174 | the orphan row joins a category created later with its id, whereas the checked append leaves nothing to join |
| TransactionLedger.Views | personalfinancetracker.py:194-195 | each result row is the projection of the joined row at the same position |
| TransactionLedger.NewerFirstIsTotalPreorder | personalfinancetracker.py:215 | `NewerFirst`, date descending and then id descending in place of creation time, is a total preorder |
| TransactionLedger.ConditionOf | personalfinancetracker.py:202-213 | a joined row meets the WHERE clause iff it is on or after a given start, on or before a given end, and under a given non-zero category id |
| TransactionLedger.LimitOf | personalfinancetracker.py:217-218 | a LIMIT is applied iff a limit is given and positive, and it is that limit |
| TransactionLedger.FalsyFiltersAreAbsent | personalfinancetracker.py:208-218 | category id 0 gives the same result as no category id, and a limit of zero or below the same as no limit |
| TransactionLedger.MatchingRowsSatisfyFilter | personalfinancetracker.py:199-213 | every row kept by the WHERE clause comes from a joined transaction that satisfies every supplied filter |
| TransactionLedger.Ordered | personalfinancetracker.py:215 | the ordered rows are a permutation of the matching rows, newest first |
| TransactionLedger.GetTransactions | personalfinancetracker.py:188-221 | every row satisfies the start, end and category filters; rows are ordered newest first; a positive limit caps the count; without one, all matching rows are returned |
| TransactionLedger.PrefixRowsMatch | personalfinancetracker.py:199-218 | every row of a prefix of the ordered matches satisfies the filters |
| TransactionLedger.LimitIsPrefix | personalfinancetracker.py:217-218 | a limited query returns the first min(limit, n) rows of the unlimited one |
| TransactionLedger.UnfilteredQueryReturns | personalfinancetracker.py:188-221 | a query without filters returns every transaction whose category resolves |
| TransactionLedger.AppendedIsQueried | personalfinancetracker.py:148-221 | a transaction appended under an existing category is returned by an unfiltered query with its id and amount |
| Reporting.BalanceSummary | personalfinancetracker.py:223-274 | the totals are the income and expense sums; the monthly figures sum dates on or after the first of the current month; net worth and monthly savings are the differences |
| Reporting.EmptyLedgerSummary | personalfinancetracker.py:227-274 | a ledger with no transactions summarises to all zeros |
| Reporting.SummaryAfterAppend | personalfinancetracker.py:148-274 | an append under a category of kind k adds its amount to the all-time total of k, to the monthly total of k iff it is dated this month or later, and its signed amount to the net worth |
| Reporting.BalanceTracksNetWorth | personalfinancetracker.py:166-186 | an append moves the primary balance and the net worth by the same amount, even when it fails |
| Reporting.MonthlyWithinTotal | personalfinancetracker.py:227-265 | with non-negative amounts, 0 <= monthly <= total for both kinds |
| Reporting.WithPostings | personalfinancetracker.py:287-292 | a category forms a group iff it is in the registry and some joined row in the window belongs to it |
| Reporting.WithPostingsCounts | personalfinancetracker.py:287-292 | a category with a row in the window keeps its multiplicity in the registry among the groups, and any other category is absent |
| Reporting.Group | personalfinancetracker.py:287-292 | row i is the group row (name, color, sum, type) of the i-th category that has a transaction, and there are no other rows |
| Reporting.GroupMembers | personalfinancetracker.py:287-292 | a row is present iff it is the group row of some registered category with a transaction |
| Reporting.WithPostingsNamesDistinct | personalfinancetracker.py:292 | with unique category names, the grouped categories have unique names |
| Reporting.GroupNamesDistinct | personalfinancetracker.py:292 | with unique category names, no two rows carry the same name: one row per category |
| Reporting.LargerFirstIsTotalPreorder | personalfinancetracker.py:293 | ordering by total descending is a total preorder |
| Reporting.Breakdown | personalfinancetracker.py:292-293 | a permutation of the grouped rows, each kept with its multiplicity, largest total first |
| Reporting.ParseSpendingPeriod | personalfinancetracker.py:280-285 | "monthly" selects this month, "yearly" this year, and any other value all time |
| Reporting.PeriodStart | personalfinancetracker.py:280-285 | "monthly" starts on the first of today's month, "yearly" on January 1 of today's year, and all time on 1900-01-01; each start is a valid first day on or before a valid today |
| Reporting.PeriodsNest | personalfinancetracker.py:280-285 | from 1900 on, the all-time start precedes this year's, which precedes this month's, which precedes today |
| Reporting.CategorySpending | personalfinancetracker.py:276-296 | a permutation of the grouped rows (one per category with a transaction on or after the period start), largest total first |
| Reporting.SpendingCoversWindow | personalfinancetracker.py:276-296 | every transaction in the window appears under its category's name and type, in a row whose total is that category's sum over the window |
| Reporting.ReportWindowIsMonth | personalfinancetracker.py:396-415 | for months 1..12 the report window takes a dated row iff it is in that month |
| Reporting.MonthAcceptedIsDatetimeRange | personalfinancetracker.py:400-405 | `MonthAccepted` holds iff the next month's first day is a valid date in years 1..9999 and the day before it is not before year 1 |
| Reporting.DatesOf | personalfinancetracker.py:437 | the dates of the rows, position by position |
| Reporting.LeqIsTotalPreorder | personalfinancetracker.py:443 | ascending date order is a total preorder, derived from `Dates.LeqIsTotalOrder` |
| Reporting.Dedup | personalfinancetracker.py:442 | removing repeats from sorted dates gives a strictly increasing sequence with the same members |
| Reporting.DayEntries | personalfinancetracker.py:437-442 | one entry per given date, with that day's expense and income sums |
| Reporting.DistinctDays | personalfinancetracker.py:442-443 | the dates that occur, each once, strictly ascending |
| Reporting.Daily | personalfinancetracker.py:436-445 | the daily series is strictly ascending by date, and each entry holds its day's expense and income sums; every day with a transaction has an entry, and only those days |
| Reporting.SavingsRate | personalfinancetracker.py:455 | rate * income = savings * 100 when income > 0, and 0 otherwise |
| Reporting.MonthlyReport | personalfinancetracker.py:396-456 | it fails iff Python's date arithmetic raises; otherwise income and expenses are the window's sums, savings is their difference, the rate is 0 without positive income, and the breakdown and daily series cover the window |
| BudgetMonitor.CreateBudget | personalfinancetracker.py:298-309 | the budget is appended with the next id and the 0.8 default threshold, and that id is returned; an invalid period fails and changes nothing |
| BudgetMonitor.Percentage | personalfinancetracker.py:338 | pct * amount = spent * 100 when amount > 0, and 0 otherwise |
| BudgetMonitor.StatusOf | personalfinancetracker.py:327-348 | spent is the sum by category name over [start, end]; remaining = amount - spent; alert holds iff percentage >= threshold * 100 |
| BudgetMonitor.AlertMeansThresholdReached | personalfinancetracker.py:338-346 | a positive budget alerts iff spent >= threshold * amount; a non-positive one alerts iff the threshold is not positive |
| BudgetMonitor.ActiveUntilEnd | personalfinancetracker.py:320 | a budget is checked on its end date and not the day after, and one checked today was checked on every earlier day |
| BudgetMonitor.ReportedBudgets | personalfinancetracker.py:315-321 | the kept budgets are exactly those that are active and whose category resolves, in insertion order (a choice the model fixes) |
| BudgetMonitor.ReportedBudgetsCounts | personalfinancetracker.py:315-321 | a reported budget keeps its multiplicity, and no other budget appears |
| BudgetMonitor.Statuses | personalfinancetracker.py:315-351 | row i is the status of the i-th active budget whose category resolves, and there are no other rows |
| BudgetMonitor.StatusesMembers | personalfinancetracker.py:315-351 | every status row comes from an active budget whose category resolves, and every such budget has its row |
| BudgetMonitor.CheckBudgetStatus | personalfinancetracker.py:311-351 | one status per budget that has not ended and joins a category, and no other, in the insertion order the model fixes |
| BudgetMonitor.SpendByNameIsSpendById | personalfinancetracker.py:330-335 | with unique names, spend matched by name equals spend matched by id |
| BudgetMonitor.OverrunExample | personalfinancetracker.py:311-351 | a worked example of `AlertMeansThresholdReached`: 300 spent on a 200 budget gives 150%, an alert and -100 remaining |
| GoalTracker.AddGoal | personalfinancetracker.py:353-364 | the goal is appended with the next id, nothing saved and not achieved, and that id is returned |
| GoalTracker.Advance | personalfinancetracker.py:369-380 | the saved amount grows by exactly the amount; the goal is achieved iff it was already or now reaches its target |
| GoalTracker.AdvanceWhere | personalfinancetracker.py:369-380 | only the rows with the id are advanced |
| GoalTracker.UpdateGoalProgress | personalfinancetracker.py:366-382 | the goal with the id gains exactly the amount and becomes achieved on reaching its target, every other column of it (name, target, date, priority) unchanged; other goals and relations are unchanged; an unknown id changes nothing |
| GoalTracker.AchievedIsSticky | personalfinancetracker.py:376-380 | an achieved goal stays achieved, even after a negative update; an updated goal left unachieved is below its target |
| GoalTracker.ReachThenWithdrawExample | personalfinancetracker.py:366-382 | a 500 goal reached with 500 is achieved, and withdrawing 100 leaves it achieved at 400 |
| GoalTracker.ProgressOf | personalfinancetracker.py:390 | progress is NULL iff the target is 0; otherwise progress * target = current * 100 |
| GoalTracker.GoalOrderIsTotalPreorder | personalfinancetracker.py:392 | `GoalOrder`, priority and then target date with NULL first, is a total preorder |
| GoalTracker.Annotate | personalfinancetracker.py:388-390 | each goal is paired with its progress |
| GoalTracker.GetGoals | personalfinancetracker.py:384-394 | every goal appears, ordered by priority then target date, with its progress |
| InsightGenerator.TopExpense | personalfinancetracker.py:562-567 | the result is an expense row with the largest total, or none iff there is no expense row |
| InsightGenerator.TopExpenseIndex | personalfinancetracker.py:562-567 | the chosen row sits at a position before which every expense row has a strictly smaller total |
| InsightGenerator.TopExpenseIsFirstMax | personalfinancetracker.py:562-567 | `max` keeps the first maximal row: some position holds the result, and every earlier expense row is strictly smaller |
| InsightGenerator.Generate | personalfinancetracker.py:529-571 | the warning and the review recommendation appear iff monthly expenses exceed monthly income; exactly one savings-tier message fires iff monthly income > 0; the habit names the top expense category |
| InsightGenerator.SavingsTiers | personalfinancetracker.py:545-559 | with positive income: excellent iff 5 * savings >= income; good iff 10 * savings >= income > 5 * savings; save more iff 10 * savings < income |
| InsightGenerator.FinancialInsights | personalfinancetracker.py:524-571 | on a ledger: the warning appears iff this month's expenses exceed its income; overspending with positive income draws exactly the review and save-more recommendations; the habit names an expense category of this month that no other expense category exceeds |
| InsightGenerator.OverspendingRecommendations | personalfinancetracker.py:536-559 | overspending with positive income draws exactly the review and the save-more recommendations, the warning, and no achievement |
| Importer.RowCategory | personalfinancetracker.py:494-508 | the category a row goes under: the existing one of its name, or the new row with the next id, that name, the parsed type and the column defaults |
| Importer.ImportRowStep | personalfinancetracker.py:493-519 | a row succeeds iff its amount parses and its category exists or its type is valid; a missing category with a valid type (an absent Type column meaning "expense") is appended with the next id, that type and the defaults; on success exactly one transaction with the row's cells is appended under `RowCategory`, and the primary balance moves by its signed amount while the other accounts stay; an absent category whose type fails the CHECK fails with that invalid type and leaves the ledger unchanged; an unparsable amount fails with `UnparsableAmount`; on failure no transaction is added and the accounts are unchanged |
| Importer.ImportRowAccounts | personalfinancetracker.py:510-519 | a row that goes through changes only the primary account's balance, by the signed amount under `RowCategory`; every other column of that account stays |
| Importer.ImportRows | personalfinancetracker.py:489-522 | rows are imported in order: earlier transactions and categories are kept; full success adds one transaction per row, and a failure adds fewer |
| Importer.ImportRowsInOrder | personalfinancetracker.py:493-519 | when every row goes through, the new transactions, in order, are the rows' transactions |
| Importer.ImportedAt | personalfinancetracker.py:493-519 | rows imported in order give the i-th row's transaction at position i |
| Importer.ImportedRowsInOrder | personalfinancetracker.py:493-519 | when every row goes through, the i-th new transaction has the i-th row's amount, description, date, payment method, location and tags, and a category of the row's name |
| Importer.ImportedAsWidens | personalfinancetracker.py:493-508 | a transaction imported under a category stays so as more categories are created |
| Importer.ImportSplit | personalfinancetracker.py:489-522 | importing a + b reads b from where a left off when a went through, and stops with a's outcome otherwise |
| Importer.FailingRowEndsImport | personalfinancetracker.py:511-522 | after rows that went through, a failing row ends the import with its own outcome: no transaction of its own, and none from the rows after it |
| Importer.LaterRowsKeepImported | personalfinancetracker.py:493-519 | further rows never alter a transaction imported earlier |

## Left out

- The SQLite connection, the DDL and the commits. The relations are sequences in insertion order.
- The `created_at` stamps are not stored. The transaction query's `ORDER BY t.created_at` is the only read of one, and the id stands in for it there.
- The unused columns `recurring` and `recurring_frequency`, and the `created_at` of categories, budgets, goals and accounts. No operation of the core reads them.
- Account creation. The class has no operation that adds an account, so accounts only enter through the initial ledger.
- The Tkinter GUI, the interactive command-line menu and the matplotlib charts. They are presentation and I/O only.
- `export_data`, and the file and CSV handling of `import_data`. An import row arrives as already-split cells. `ImportRow.amount` is `None` exactly when `float()` would raise. Whether `float()` accepts a given text (NaN, infinity, spacing) is not modelled.
- A CSV row without a Category, Amount, Description or Date column raises a KeyError, which ends the import like any other row failure. Rows are modelled with those cells present.
- Floating point. Amounts are exact reals, so rounding of REAL sums, `ROUND(..., 2)` on goal progress and the `:.2f`/`:.1f` formatting are not modelled.
- The message texts of the insights. Each message is a tag carrying the figures it quotes.
- Dates are triples; their ISO text is not modelled. `date.isoformat()` zero-pads every year that `datetime.date` accepts (1..9999), so those strings order as the triples do. Only the window strings of `generate_monthly_report`, built as `f"{year}-{month:02d}-..."`, leave a year below 1000 unpadded, and for such years their string order differs from the triple order.
- SQL leaves the order of ties open. The category breakdown and the goal list are stated as sorted permutations, without fixing how ties are ordered.
- TransactionLedger.Ordered: transactions of the same date are ordered by id, newest id first. The source orders them by `created_at` DESC, which has one-second resolution, so rows created in the same second tie and SQLite may return them in any order. The model fixes one of those orders. `GetTransactions` and `LimitIsPrefix` inherit it.
- BudgetMonitor.CheckBudgetStatus: the statuses come in budget insertion order. The budget query has no ORDER BY, so SQLite does not promise an order; the model fixes this one. `Statuses` and `ReportedBudgets` share it.
- TransactionLedger.UpdateBalance: the balance is posted to `accounts[0]`, taken as the row `SELECT id FROM accounts LIMIT 1` yields. Without ORDER BY, SQLite does not promise which row that is.
- Reporting.MonthlyReport: the category rows carry the color column as well as the three selected columns (name, sum, type).
- TransactionLedger.GetTransactions: with a limit, the contract states the cap and the order; `LimitIsPrefix` states which rows are kept.
- Importer.ImportRowStep: when a row creates a category and then fails on its amount, the new category stays in the model. In the source that insert is uncommitted, and it persists only if a later commit on the same connection takes it along.

## Findings

| source | as written | input that shows it | evidently intended | confidence | as-written member | corrected member |
|---|---|---|---|---|---|---|
| personalfinancetracker.py:156-174 | `add_transaction` inserts and commits the row before `update_balance_after_transaction` looks up the category. An unknown id then raises at `fetchone()[0]`, leaving a committed transaction whose error the caller sees. | `add_transaction(50.0, "lunch", 99)` on a ledger without category 99 raises, yet the transactions relation has one more row. A category created later with that id makes the row count in every total. | A failed append leaves no visible row: the category is checked before anything is stored. | not executed | TransactionLedger.UnknownCategoryLeavesOrphan | TransactionLedger.AddTransactionChecked |

`TransactionLedger.AddTransactionChecked` agrees with `AddTransaction` whenever the category resolves. That holds for every call the importer makes and for the premises of `SummaryAfterAppend` and `AppendedIsQueried`. `OrphanSurfacesLater` contrasts the two on an empty ledger.

=== FILE: budgets.dfy ===
/** The budget monitor: creating a budget and evaluating every budget whose
    window has not yet ended against the ledger. */
module BudgetMonitor {
  import opened Common
  import opened Dates
  import opened Schema

  /** Column default of budgets.alert_threshold. */
  const DefaultAlertThreshold: real := 0.8

  /** create_budget: inserts the budget with the default alert threshold
      and returns its id. Nothing is validated except the CHECK on the
      period; the category id is not checked against the registry. */
  function CreateBudget(l: Ledger, categoryId: int, amount: real, period: string,
                        startDate: Date, endDate: Date): (r: (Ledger, Result<nat>))
    ensures r.1.Err? <==> ParsePeriod(period).None?
    ensures r.1.Err? ==> r.0 == l && r.1.error == InvalidPeriod(period)
    ensures r.1.Ok? ==>
              && r.1.value == |l.budgets| + 1
              && r.0 == l.(budgets := l.budgets + [Budget(r.1.value, categoryId, amount, ParsePeriod(period).value,
                                                         startDate, endDate, DefaultAlertThreshold)])
    ensures WellFormed(l) ==> WellFormed(r.0)
  {
    match ParsePeriod(period)
    case None => (l, Err(InvalidPeriod(period)))
    case Some(p) =>
      var b := Budget(|l.budgets| + 1, categoryId, amount, p, startDate, endDate, DefaultAlertThreshold);
      (l.(budgets := l.budgets + [b]), Ok(b.id))
  }

  datatype BudgetStatus = BudgetStatus(
    category: string, budget: real, spent: real, remaining: real,
    percentage: real, alert: bool, period: Period)

  /** spent / amount * 100, or 0 for a non-positive budget amount. */
  function Percentage(spent: real, amount: real): (pct: real)
    ensures amount > 0.0 ==> pct * amount == spent * 100.0
    ensures amount <= 0.0 ==> pct == 0.0
  {
    if amount > 0.0 then spent / amount * 100.0 else 0.0
  }

  /** Spend is matched by category NAME and by `t.date BETWEEN start AND end`. */
  function SpendWindow(b: Budget, c: Category): Where {
    Everything.(categoryName := Some(c.name), from := Some(b.startDate), to := Some(b.endDate))
  }

  /** One budget's status: spend in the window, the remainder (negative on
      overrun), the percentage used and whether it reached the alert
      threshold. */
  function StatusOf(b: Budget, c: Category, ps: seq<Posting>): (s: BudgetStatus)
    ensures s.category == c.name && s.budget == b.amount && s.period == b.period
    ensures s.spent == Total(ps, SpendWindow(b, c))
    ensures s.remaining == b.amount - s.spent
    ensures s.percentage == Percentage(s.spent, b.amount)
    ensures s.alert <==> s.percentage >= b.alertThreshold * 100.0
  {
    var spent := Total(ps, SpendWindow(b, c));
    var pct := Percentage(spent, b.amount);
    BudgetStatus(c.name, b.amount, spent, b.amount - spent, pct, pct >= b.alertThreshold * 100.0, b.period)
  }

  /** Without the division: for a positive budget the alert fires iff spend
      has reached threshold * amount; for a non-positive one the percentage
      is 0, so it fires iff the threshold is not positive. */
  lemma AlertMeansThresholdReached(b: Budget, c: Category, ps: seq<Posting>)
    ensures var s := StatusOf(b, c, ps);
            && (b.amount > 0.0 ==> (s.alert <==> s.spent >= b.alertThreshold * b.amount))
            && (b.amount <= 0.0 ==> (s.alert <==> b.alertThreshold <= 0.0))
  {
    var s := StatusOf(b, c, ps);
    if b.amount > 0.0 {
      var t := b.alertThreshold;
      assert s.percentage * b.amount == s.spent * 100.0;
      if s.percentage >= t * 100.0 {
        assert s.percentage * b.amount >= t * 100.0 * b.amount;
      } else {
        assert s.percentage * b.amount < t * 100.0 * b.amount;
      }
    }
  }

  /** A budget is checked while `end_date >= date('now')`. */
  predicate Active(b: Budget, now: Date) {
    Leq(now, b.endDate)
  }

  /** A budget is checked up to and including its end date and never after
      it, and one checked today was checked on every earlier day. */
  lemma ActiveUntilEnd(b: Budget, now: Date, earlier: Date)
    requires Valid(b.endDate)
    ensures Active(b, b.endDate) && !Active(b, NextDay(b.endDate))
    ensures Active(b, now) && Leq(earlier, now) ==> Active(b, earlier)
  {
    LeqIsTotalOrder(earlier, now, b.endDate);
  }

  /** A budget gets a status row iff it is active and its category id
      joins a category (`JOIN categories c ON b.category_id = c.id`). */
  predicate Reported(b: Budget, cats: seq<Category>, now: Date) {
    Active(b, now) && FindCategory(cats, b.categoryId).Some?
  }

  /** The budgets that get a status row, in insertion order (the query has
      no ORDER BY; the model fixes this order). */
  function ReportedBudgets(budgets: seq<Budget>, cats: seq<Category>, now: Date): (r: seq<Budget>)
    ensures |r| <= |budgets|
    ensures forall i :: 0 <= i < |r| ==> Reported(r[i], cats, now)
    ensures forall b :: b in r <==> b in budgets && Reported(b, cats, now)
  {
    if |budgets| == 0 then []
    else
      assert forall b :: b in budgets <==> b == budgets[0] || b in budgets[1..];
      (if Reported(budgets[0], cats, now) then [budgets[0]] else []) + ReportedBudgets(budgets[1..], cats, now)
  }

  /** Each reported budget keeps its multiplicity, and no other budget
      appears. */
  lemma {:induction false} ReportedBudgetsCounts(budgets: seq<Budget>, cats: seq<Category>, now: Date, b: Budget)
    ensures multiset(ReportedBudgets(budgets, cats, now))[b] == if Reported(b, cats, now) then multiset(budgets)[b] else 0
    decreases |budgets|
  {
    if |budgets| > 0 {
      var head := if Reported(budgets[0], cats, now) then [budgets[0]] else [];
      assert ReportedBudgets(budgets, cats, now) == head + ReportedBudgets(budgets[1..], cats, now);
      assert budgets == [budgets[0]] + budgets[1..];
      assert multiset(budgets) == multiset{budgets[0]} + multiset(budgets[1..]);
      ReportedBudgetsCounts(budgets[1..], cats, now, b);
    }
  }

  /** The statuses of the active budgets whose category resolves, in
      insertion order: row i is the status of the i-th reported budget. */
  function Statuses(budgets: seq<Budget>, cats: seq<Category>, ps: seq<Posting>, now: Date): (r: seq<BudgetStatus>)
    ensures |r| <= |budgets|
    ensures |r| == |ReportedBudgets(budgets, cats, now)|
    ensures forall i :: 0 <= i < |r| ==>
              var b := ReportedBudgets(budgets, cats, now)[i];
              r[i] == StatusOf(b, FindCategory(cats, b.categoryId).value, ps)
  {
    if |budgets| == 0 then []
    else
      var rest := Statuses(budgets[1..], cats, ps, now);
      var b := budgets[0];
      if Reported(b, cats, now) then
        [StatusOf(b, FindCategory(cats, b.categoryId).value, ps)] + rest
      else rest
  }

  /** Every status row comes from a reported budget, and every reported
      budget has its row. */
  lemma StatusesMembers(budgets: seq<Budget>, cats: seq<Category>, ps: seq<Posting>, now: Date)
    ensures forall s :: s in Statuses(budgets, cats, ps, now) ==>
              exists b :: b in budgets && Reported(b, cats, now)
                          && s == StatusOf(b, FindCategory(cats, b.categoryId).value, ps)
    ensures forall b :: b in budgets && Reported(b, cats, now) ==>
              StatusOf(b, FindCategory(cats, b.categoryId).value, ps) in Statuses(budgets, cats, ps, now)
  {
    var r := Statuses(budgets, cats, ps, now);
    var rb := ReportedBudgets(budgets, cats, now);
    forall s | s in r
      ensures exists b :: b in budgets && Reported(b, cats, now)
                          && s == StatusOf(b, FindCategory(cats, b.categoryId).value, ps)
    {
      var i :| 0 <= i < |r| && r[i] == s;
      var b := rb[i];
      assert b in rb;
    }
    forall b | b in budgets && Reported(b, cats, now)
      ensures StatusOf(b, FindCategory(cats, b.categoryId).value, ps) in r
    {
      assert b in rb;
      var i :| 0 <= i < |rb| && rb[i] == b;
      assert r[i] == StatusOf(b, FindCategory(cats, b.categoryId).value, ps);
    }
  }

  /** check_budget_status, with `now` standing for SQLite's date('now'):
      one status per active budget that joins a category, and no other. */
  function CheckBudgetStatus(l: Ledger, now: Date): (r: seq<BudgetStatus>)
    ensures |r| <= |l.budgets|
    ensures |r| == |ReportedBudgets(l.budgets, l.categories, now)|
    ensures forall i :: 0 <= i < |r| ==>
              var b := ReportedBudgets(l.budgets, l.categories, now)[i];
              r[i] == StatusOf(b, FindCategory(l.categories, b.categoryId).value, Joined(l))
    ensures forall s :: s in r ==>
              exists b :: b in l.budgets && Active(b, now) && FindCategory(l.categories, b.categoryId).Some?
                          && s == StatusOf(b, FindCategory(l.categories, b.categoryId).value, Joined(l))
    ensures forall b :: b in l.budgets && Active(b, now) && FindCategory(l.categories, b.categoryId).Some? ==>
              StatusOf(b, FindCategory(l.categories, b.categoryId).value, Joined(l)) in r
  {
    StatusesMembers(l.budgets, l.categories, Joined(l), now);
    Statuses(l.budgets, l.categories, Joined(l), now)
  }

  /** Because category names are UNIQUE, matching spend by name selects
      exactly the transactions whose category id is the budget's. */
  lemma {:induction false} SpendByNameIsSpendById(l: Ledger, b: Budget, c: Category)
    requires WellFormed(l) && c in l.categories
    ensures Total(Joined(l), SpendWindow(b, c)) ==
            Total(Joined(l), Everything.(categoryId := Some(c.id), from := Some(b.startDate), to := Some(b.endDate)))
  {
    var byId := Everything.(categoryId := Some(c.id), from := Some(b.startDate), to := Some(b.endDate));
    forall p | p in Joined(l)
      ensures Holds(SpendWindow(b, c), p) <==> Holds(byId, p)
    {
      var i :| 0 <= i < |l.categories| && l.categories[i] == p.category;
      var j :| 0 <= j < |l.categories| && l.categories[j] == c;
      assert p.category.name == c.name <==> i == j;
      assert p.txn.categoryId == c.id <==> i == j;
    }
    SelectAgree(Joined(l), SpendWindow(b, c), byId);
  }

  /** A 200 budget for Food whose window holds a 300 expense is 150% used,
      alerts, and has -100 remaining. */
  lemma OverrunExample()
    ensures var food := Category(1, "Food", Expense, "#dc3545", 0.0);
            var l := Ledger([food],
                            [Transaction(1, 300.0, "groceries", 1, Date(2024, 5, 10), "cash", "", "")],
                            [Budget(1, 1, 200.0, Monthly, Date(2024, 5, 1), Date(2024, 5, 31), DefaultAlertThreshold)],
                            [], []);
            CheckBudgetStatus(l, Date(2024, 5, 15)) == [BudgetStatus("Food", 200.0, 300.0, -100.0, 150.0, true, Monthly)]
  {
    var food := Category(1, "Food", Expense, "#dc3545", 0.0);
    var t := Transaction(1, 300.0, "groceries", 1, Date(2024, 5, 10), "cash", "", "");
    var l := Ledger([food], [t], [Budget(1, 1, 200.0, Monthly, Date(2024, 5, 1), Date(2024, 5, 31), DefaultAlertThreshold)], [], []);
    var b := l.budgets[0];
    assert Joined(l) == [Posting(t, food)];
    assert Select(Joined(l), SpendWindow(b, food)) == [Posting(t, food)];
    assert SumAmount([Posting(t, food)]) == 300.0 + SumAmount([]);
    assert Percentage(300.0, 200.0) == 150.0;
    assert Statuses(l.budgets[1..], l.categories, Joined(l), Date(2024, 5, 15)) == [];
  }
}

=== FILE: categories.dfy ===
/** The category registry: the ten default categories seeded into an empty
    registry, and the lazy creation of a category by name during import. */
module CategoryRegistry {
  import opened Common
  import opened Schema

  /** Column defaults of the categories table. */
  const DefaultColor: string := "#007bff"
  const DefaultBudgetLimit: real := 0.0

  /** The seed rows (name, type, color), in insertion order. */
  const Seed: seq<(string, Kind, string)> := [
    ("Зарплата", Income, "#28a745"),
    ("Фриланс", Income, "#17a2b8"),
    ("Инвестиции", Income, "#ffc107"),
    ("Еда и развлечения", Expense, "#dc3545"),
    ("Транспорт", Expense, "#6f42c1"),
    ("Покупки", Expense, "#fd7e14"),
    ("Развлечения", Expense, "#e83e8c"),
    ("Счета и коммунальные", Expense, "#6c757d"),
    ("Здоровье", Expense, "#20c997"),
    ("Образование", Expense, "#0d6efd")
  ]

  /** The seed rows as inserted into an empty table: ids 1..10 and the
      default budget limit. */
  function DefaultCategories(): (cs: seq<Category>)
    ensures |cs| == |Seed|
    ensures forall i :: 0 <= i < |cs| ==>
              cs[i] == Category(i + 1, Seed[i].0, Seed[i].1, Seed[i].2, DefaultBudgetLimit)
  {
    seq(|Seed|, i requires 0 <= i < |Seed| => Category(i + 1, Seed[i].0, Seed[i].1, Seed[i].2, DefaultBudgetLimit))
  }

  /** The seed holds ten pairwise distinct names: three income and seven
      expense categories. */
  lemma DefaultsDistinct()
    ensures |DefaultCategories()| == 10
    ensures forall i, j :: 0 <= i < j < 10 ==> DefaultCategories()[i].name != DefaultCategories()[j].name
    ensures forall i :: 0 <= i < 3 ==> DefaultCategories()[i].kind == Income
    ensures forall i :: 3 <= i < 10 ==> DefaultCategories()[i].kind == Expense
  {
    var cs := DefaultCategories();
    forall i, j | 0 <= i < j < 10
      ensures cs[i].name != cs[j].name
    {
      assert cs[i].name == Seed[i].0 && cs[j].name == Seed[j].0;
      assert Seed[i].0 != Seed[j].0 by {
        // the names already differ in their first or second letter, or in length
        assert |Seed[i].0| != |Seed[j].0| || Seed[i].0[0] != Seed[j].0[0] || Seed[i].0[1] != Seed[j].0[1];
      }
    }
  }

  /** populate_default_categories: insert the seed rows iff the registry is
      empty; a non-empty registry is left exactly as it was. */
  function PopulateDefaultCategories(l: Ledger): (r: Ledger)
    ensures |l.categories| == 0 ==> r.categories == DefaultCategories()
    ensures |l.categories| > 0 ==> r == l
    ensures r.transactions == l.transactions && r.budgets == l.budgets
    ensures r.goals == l.goals && r.accounts == l.accounts
  {
    if |l.categories| == 0 then l.(categories := DefaultCategories()) else l
  }

  /** A second seeding is a no-op: the result never has duplicate names and
      never more than the ten seed rows added. */
  lemma SeedingIdempotent(l: Ledger)
    ensures PopulateDefaultCategories(PopulateDefaultCategories(l)) == PopulateDefaultCategories(l)
    ensures WellFormed(l) ==> WellFormed(PopulateDefaultCategories(l))
  {
    DefaultsDistinct();
  }

  /** `INSERT INTO categories (name, type) VALUES (?, ?)` for a name known
      to be absent: the new row takes the next id and the column defaults. */
  function CreateCategory(l: Ledger, name: string, kind: Kind): (r: (Ledger, Category))
    requires FindCategoryByName(l.categories, name).None?
    ensures r.0.categories == l.categories + [r.1]
    ensures r.1.id == |l.categories| + 1 && r.1.name == name && r.1.kind == kind
    ensures r.1.color == DefaultColor && r.1.budgetLimit == DefaultBudgetLimit
    ensures r.0.transactions == l.transactions && r.0.budgets == l.budgets
    ensures r.0.goals == l.goals && r.0.accounts == l.accounts
    ensures WellFormed(l) ==> WellFormed(r.0)
  {
    var c := Category(|l.categories| + 1, name, kind, DefaultColor, DefaultBudgetLimit);
    assert forall i :: 0 <= i < |l.categories| ==> l.categories[i] in l.categories;
    (l.(categories := l.categories + [c]), c)
  }

  /** The import's find-or-create step: look the name up; when absent,
      create it with the row's Type (which must pass the CHECK constraint).
      On success the returned category carries the requested name and is
      in the registry, and an existing registry row is never altered. */
  function FindOrCreate(l: Ledger, name: string, kind: string): (r: Result<(Ledger, Category)>)
    ensures r.Ok? ==> r.value.1.name == name && r.value.1 in r.value.0.categories
    ensures r.Ok? ==> l.categories <= r.value.0.categories
    ensures r.Ok? ==> r.value.0.transactions == l.transactions
    ensures r.Ok? && WellFormed(l) ==> WellFormed(r.value.0)
    ensures FindCategoryByName(l.categories, name).Some? ==> r == Ok((l, FindCategoryByName(l.categories, name).value))
    ensures r.Err? <==> FindCategoryByName(l.categories, name).None? && ParseKind(kind).None?
    ensures r.Err? ==> r.error == InvalidKind(kind)
    ensures FindCategoryByName(l.categories, name).None? && ParseKind(kind).Some? ==>
              r == Ok(CreateCategory(l, name, ParseKind(kind).value))
  {
    match FindCategoryByName(l.categories, name)
    case Some(c) => Ok((l, c))
    case None =>
      match ParseKind(kind)
      case None => Err(InvalidKind(kind))
      case Some(k) =>
        var (l', c) := CreateCategory(l, name, k);
        assert c == l'.categories[|l.categories|];
        Ok((l', c))
  }
}

=== FILE: common.dfy ===
/** Option and Result wrappers shared by every component of the ledger model,
    and the error values the tracker's operations can raise. */
module Common {

  datatype Option<+T> = None | Some(value: T)

  /** The ways an operation of the tracker fails. Each corresponds to an
      exception the tracker lets escape (or, during import, catches). */
  datatype Error =
    | UnknownCategory(categoryId: int)   // fetchone() returned no row for the id
    | InvalidKind(kind: string)          // the CHECK on categories.type rejected the value
    | InvalidPeriod(period: string)      // the CHECK on budgets.period rejected the value
    | UnparsableAmount                   // float() rejected an imported Amount cell
    | InvalidMonth(year: int, month: int) // datetime.date rejected the report month

  datatype Result<+T> = Ok(value: T) | Err(error: Error)
}

=== FILE: dates.dfy ===
/** Calendar dates as (year, month, day) triples.

    The tracker stores dates as ISO-8601 text (YYYY-MM-DD) and compares them
    as strings; for zero-padded four-digit years that string order is exactly
    the lexicographic order on the triple defined here. */
module Dates {

  datatype Date = Date(year: int, month: int, day: int)

  /** `a <= b` on ISO dates. */
  predicate Leq(a: Date, b: Date) {
    || a.year < b.year
    || (a.year == b.year && a.month < b.month)
    || (a.year == b.year && a.month == b.month && a.day <= b.day)
  }

  predicate Lt(a: Date, b: Date) {
    Leq(a, b) && a != b
  }

  /** Gregorian leap-year rule, as Python's datetime uses it. */
  predicate IsLeapYear(y: int) {
    y % 4 == 0 && (y % 100 != 0 || y % 400 == 0)
  }

  function DaysInMonth(y: int, m: int): (n: int)
    requires 1 <= m <= 12
    ensures 28 <= n <= 31
  {
    if m == 2 then (if IsLeapYear(y) then 29 else 28)
    else if m == 4 || m == 6 || m == 9 || m == 11 then 30
    else 31
  }

  predicate Valid(d: Date) {
    1 <= d.month <= 12 && 1 <= d.day <= DaysInMonth(d.year, d.month)
  }

  /** `today.replace(day=1)`. */
  function FirstOfMonth(d: Date): Date {
    Date(d.year, d.month, 1)
  }

  /** `today.replace(month=1, day=1)`. */
  function FirstOfYear(d: Date): Date {
    Date(d.year, 1, 1)
  }

  /** The day after `d` on the Gregorian calendar. */
  function NextDay(d: Date): (r: Date)
    requires Valid(d)
    ensures Valid(r) && Lt(d, r)
  {
    if d.day < DaysInMonth(d.year, d.month) then Date(d.year, d.month, d.day + 1)
    else if d.month < 12 then Date(d.year, d.month + 1, 1)
    else Date(d.year + 1, 1, 1)
  }

  /** `d - timedelta(days=1)`: the day before `d`, rolling back over month
      and year boundaries. */
  function PrevDay(d: Date): (r: Date)
    requires Valid(d)
    ensures Valid(r) && Lt(r, d)
    ensures NextDay(r) == d
  {
    if d.day > 1 then Date(d.year, d.month, d.day - 1)
    else if d.month > 1 then Date(d.year, d.month - 1, DaysInMonth(d.year, d.month - 1))
    else Date(d.year - 1, 12, 31)
  }

  /** The first day of the month after (y, m): `date(y + 1, 1, 1)` for
      December and `date(y, m + 1, 1)` otherwise. Month 0 is accepted here
      because the source's arithmetic accepts it. */
  function NextMonthStart(y: int, m: int): (r: Date)
    requires 0 <= m <= 12
    ensures Valid(r) && r.day == 1
  {
    if m == 12 then Date(y + 1, 1, 1) else Date(y, m + 1, 1)
  }

  /** The last day of month (y, m), obtained as the source obtains it: step
      to the first day of the next month and go back one day. For months
      1..12 it is the true last calendar day: the day after it is the first
      of the next month, and it never lies before the 28th. */
  function MonthEnd(y: int, m: int): (r: Date)
    requires 0 <= m <= 12
    ensures r.year == y && r.month == m && 28 <= r.day <= 31
    ensures 1 <= m <= 12 ==> Valid(r) && NextDay(r) == NextMonthStart(y, m)
  {
    Date(y, m, PrevDay(NextMonthStart(y, m)).day)
  }

  /** The report window [(y, m, 1), MonthEnd(y, m)] contains exactly the
      valid dates of month (y, m). */
  lemma {:induction false} MonthWindowIsMonth(y: int, m: int, d: Date)
    requires 1 <= m <= 12
    requires Valid(d)
    ensures Leq(Date(y, m, 1), d) && Leq(d, MonthEnd(y, m)) <==> d.year == y && d.month == m
  {
    var e := MonthEnd(y, m);
    assert e.day == DaysInMonth(y, m) by {
      if m < 12 {
        assert NextMonthStart(y, m) == Date(y, m + 1, 1);
      } else {
        assert NextMonthStart(y, m) == Date(y + 1, 1, 1);
      }
    }
  }

  /** Month 0, which the report arithmetic does not reject, gives a window
      (y, 0, 1)..(y, 0, 31) that no valid date falls into. */
  lemma MonthZeroWindowIsEmpty(y: int, d: Date)
    requires Valid(d)
    ensures !(Leq(Date(y, 0, 1), d) && Leq(d, MonthEnd(y, 0)))
  {
  }

  /** December rolls over into January of the next year. */
  lemma DecemberEnd()
    ensures MonthEnd(2024, 12) == Date(2024, 12, 31)
    ensures NextMonthStart(2024, 12) == Date(2025, 1, 1)
  {
  }

  /** February has 28 days in 2023 and 1900, 29 in 2024 and 2000. */
  lemma FebruaryEnd()
    ensures MonthEnd(2023, 2) == Date(2023, 2, 28)
    ensures MonthEnd(2024, 2) == Date(2024, 2, 29)
    ensures MonthEnd(1900, 2) == Date(1900, 2, 28)
    ensures MonthEnd(2000, 2) == Date(2000, 2, 29)
  {
  }

  /** `Leq` is a total order on dates. */
  lemma LeqIsTotalOrder(a: Date, b: Date, c: Date)
    ensures Leq(a, a)
    ensures Leq(a, b) || Leq(b, a)
    ensures Leq(a, b) && Leq(b, a) ==> a == b
    ensures Leq(a, b) && Leq(b, c) ==> Leq(a, c)
  {
  }
}

=== FILE: goals.dfy ===
/** The goal tracker: adding goals, additive progress updates with a
    one-way achieved flag, and the prioritised goal listing. */
module GoalTracker {
  import opened Common
  import opened Dates
  import opened Schema
  import opened Sorting

  /** Default of add_goal's priority argument. */
  const DefaultPriority: int := 1

  /** add_goal: inserts the goal with nothing saved yet and not achieved,
      and returns its id. The target is not validated (zero is accepted). */
  function AddGoal(l: Ledger, name: string, targetAmount: real, targetDate: Option<Date>,
                   description: string, priority: int): (r: (Ledger, nat))
    ensures r.1 == |l.goals| + 1
    ensures r.0 == l.(goals := l.goals + [Goal(r.1, name, targetAmount, 0.0, targetDate, description, priority, false)])
    ensures WellFormed(l) ==> WellFormed(r.0)
  {
    var g := Goal(|l.goals| + 1, name, targetAmount, 0.0, targetDate, description, priority, false);
    (l.(goals := l.goals + [g]), g.id)
  }

  /** The two UPDATE statements applied to one goal row: add the amount,
      then set achieved when the new amount reaches the target. The flag is
      never cleared. */
  function Advance(g: Goal, amount: real): (g': Goal)
    ensures g'.currentAmount == g.currentAmount + amount
    ensures g'.achieved <==> g.achieved || g'.currentAmount >= g.targetAmount
    ensures g' == g.(currentAmount := g'.currentAmount, achieved := g'.achieved)
  {
    var current := g.currentAmount + amount;
    g.(currentAmount := current, achieved := g.achieved || current >= g.targetAmount)
  }

  function AdvanceWhere(goals: seq<Goal>, goalId: int, amount: real): (r: seq<Goal>)
    ensures |r| == |goals|
    ensures forall i :: 0 <= i < |goals| ==>
              r[i] == if goals[i].id == goalId then Advance(goals[i], amount) else goals[i]
  {
    if |goals| == 0 then []
    else [if goals[0].id == goalId then Advance(goals[0], amount) else goals[0]]
         + AdvanceWhere(goals[1..], goalId, amount)
  }

  /** update_goal_progress: the goal with the id gains exactly `amount`
      (which may be negative) and becomes achieved once it reaches its
      target; every other goal, and every other relation, is unchanged. An
      unknown id changes nothing. */
  function UpdateGoalProgress(l: Ledger, goalId: int, amount: real): (r: Ledger)
    ensures r.categories == l.categories && r.transactions == l.transactions
    ensures r.budgets == l.budgets && r.accounts == l.accounts
    ensures |r.goals| == |l.goals|
    ensures forall i :: 0 <= i < |l.goals| && l.goals[i].id != goalId ==> r.goals[i] == l.goals[i]
    ensures forall i :: 0 <= i < |l.goals| && l.goals[i].id == goalId ==>
              && r.goals[i].currentAmount == l.goals[i].currentAmount + amount
              && (r.goals[i].achieved <==> l.goals[i].achieved || r.goals[i].currentAmount >= l.goals[i].targetAmount)
              && r.goals[i].id == goalId
              && r.goals[i].targetAmount == l.goals[i].targetAmount
    ensures forall i :: 0 <= i < |l.goals| && l.goals[i].id == goalId ==>
              r.goals[i] == l.goals[i].(currentAmount := r.goals[i].currentAmount, achieved := r.goals[i].achieved)
    ensures (forall g :: g in l.goals ==> g.id != goalId) ==> r == l
    ensures WellFormed(l) ==> WellFormed(r)
  {
    var r := l.(goals := AdvanceWhere(l.goals, goalId, amount));
    assert (forall g :: g in l.goals ==> g.id != goalId) ==> r.goals == l.goals;
    r
  }

  /** Achievement is one-way: an achieved goal stays achieved whatever is
      added (negative corrections included), and a goal the update leaves
      unachieved is still short of its target. */
  lemma AchievedIsSticky(l: Ledger, goalId: int, amount: real, i: nat)
    requires i < |l.goals|
    ensures var g' := UpdateGoalProgress(l, goalId, amount).goals[i];
            && (l.goals[i].achieved ==> g'.achieved)
            && (l.goals[i].id == goalId && !g'.achieved ==> g'.currentAmount < g'.targetAmount)
  {
  }

  /** A 500 goal reached with 500 is achieved, and taking 100 back leaves
      it achieved at 400. */
  lemma ReachThenWithdrawExample()
    ensures var (l, id) := AddGoal(Ledger([], [], [], [], []), "Vacation", 500.0, None, "", DefaultPriority);
            var l1 := UpdateGoalProgress(l, id, 500.0);
            var l2 := UpdateGoalProgress(l1, id, -100.0);
            && l1.goals[0].achieved && l1.goals[0].currentAmount == 500.0
            && l2.goals[0].achieved && l2.goals[0].currentAmount == 400.0
  {
  }

  // ---------------------------------------------------------------------------
  // get_goals

  /** A goal row with its progress percentage. */
  datatype GoalView = GoalView(goal: Goal, progress: Option<real>)

  /** `(current_amount / target_amount) * 100`; SQLite yields NULL when
      dividing by zero. */
  function ProgressOf(g: Goal): (p: Option<real>)
    ensures p.None? <==> g.targetAmount == 0.0
    ensures p.Some? ==> p.value * g.targetAmount == g.currentAmount * 100.0
  {
    if g.targetAmount == 0.0 then None else Some(g.currentAmount / g.targetAmount * 100.0)
  }

  /** SQLite's ascending order on a nullable date: NULL comes first. */
  predicate TargetDateLeq(a: Option<Date>, b: Option<Date>) {
    match (a, b)
    case (None, _) => true
    case (Some(_), None) => false
    case (Some(x), Some(y)) => Leq(x, y)
  }

  /** `ORDER BY priority, target_date`. */
  predicate GoalOrder(a: Goal, b: Goal) {
    a.priority < b.priority || (a.priority == b.priority && TargetDateLeq(a.targetDate, b.targetDate))
  }

  lemma GoalOrderIsTotalPreorder()
    ensures TotalPreorder(GoalOrder)
  {
  }

  function Annotate(goals: seq<Goal>): (r: seq<GoalView>)
    ensures |r| == |goals|
    ensures forall i :: 0 <= i < |goals| ==> r[i] == GoalView(goals[i], ProgressOf(goals[i]))
  {
    if |goals| == 0 then [] else [GoalView(goals[0], ProgressOf(goals[0]))] + Annotate(goals[1..])
  }

  /** get_goals: every goal exactly once, by priority and then target date
      (undated goals first within a priority), each with its progress. */
  function GetGoals(l: Ledger): (r: seq<GoalView>)
    ensures |r| == |l.goals|
    ensures forall i, j :: 0 <= i < j < |r| ==> GoalOrder(r[i].goal, r[j].goal)
    ensures forall v :: v in r ==> v.progress == ProgressOf(v.goal)
    ensures forall g :: g in l.goals <==> exists v :: v in r && v.goal == g
  {
    GoalOrderIsTotalPreorder();
    var sorted := SortBy(l.goals, GoalOrder);
    PermutationMembers(sorted, l.goals);
    assert |sorted| == |multiset(sorted)| == |l.goals|;
    var r := Annotate(sorted);
    assert forall g :: g in sorted ==> exists v :: v in r && v.goal == g by {
      forall g | g in sorted ensures exists v :: v in r && v.goal == g {
        var i :| 0 <= i < |sorted| && sorted[i] == g;
        assert r[i] in r;
      }
    }
    r
  }
}

=== FILE: importer.dfy ===
/** The per-row logic of import_data: find or create the row's category by
    name, then append its transaction. Rows are processed in order, and the
    first failing row ends the import; everything done before it (and the
    category that row may already have created) stays. Reading the CSV file
    is not modelled: a row arrives with its cells already split. */
module Importer {
  import opened Common
  import opened Dates
  import opened Schema
  import opened CategoryRegistry
  import opened TransactionLedger

  /** One CSV row. An optional column that is absent from the file is
      `None`; `amount` is `None` when float() cannot parse the cell. */
  datatype ImportRow = ImportRow(
    category: string, description: string, amount: Option<real>, date: Date,
    kind: Option<string>, paymentMethod: Option<string>, location: Option<string>, tags: Option<string>)

  function OrElse(o: Option<string>, default: string): string {
    if o.Some? then o.value else default
  }

  /** The transaction a successful row adds: the row's cells (or the
      defaults of absent columns), filed under a category bearing the row's
      category name. */
  predicate ImportedAs(t: Transaction, row: ImportRow, cats: seq<Category>) {
    && row.amount.Some? && t.amount == row.amount.value
    && t.description == row.description && t.date == row.date
    && t.paymentMethod == OrElse(row.paymentMethod, DefaultPaymentMethod)
    && t.location == OrElse(row.location, "") && t.tags == OrElse(row.tags, "")
    && exists c :: c in cats && c.id == t.categoryId && c.name == row.category
  }

  /** The category a row is filed under: the existing one of that name, or
      else the one the row creates with its Type (default "expense"). */
  function RowCategory(l: Ledger, row: ImportRow): Category
  {
    match FindCategoryByName(l.categories, row.category)
    case Some(c) => c
    case None =>
      Category(|l.categories| + 1, row.category,
               if ParseKind(OrElse(row.kind, "expense")).Some? then ParseKind(OrElse(row.kind, "expense")).value else Expense,
               DefaultColor, DefaultBudgetLimit)
  }

  /** One row: find or create the category (default Type "expense"), then
      parse the amount and append. Returns the new state and the error that
      stopped the row, if any. */
  function ImportRowStep(l: Ledger, row: ImportRow): (r: (Ledger, Option<Error>))
    ensures l.categories <= r.0.categories
    ensures r.0.budgets == l.budgets && r.0.goals == l.goals
    ensures r.1.None? <==>
              && row.amount.Some?
              && (FindCategoryByName(l.categories, row.category).Some? || ParseKind(OrElse(row.kind, "expense")).Some?)
    ensures r.1.Some? ==> r.0.transactions == l.transactions
    ensures r.1.None? ==> |r.0.transactions| == |l.transactions| + 1
                          && r.0.transactions[..|l.transactions|] == l.transactions
                          && ImportedAs(r.0.transactions[|l.transactions|], row, r.0.categories)
    ensures FindCategoryByName(l.categories, row.category).Some? ==> r.0.categories == l.categories
    ensures FindCategoryByName(l.categories, row.category).None? && ParseKind(OrElse(row.kind, "expense")).Some? ==>
              r.0.categories == l.categories + [Category(|l.categories| + 1, row.category,
                                                         ParseKind(OrElse(row.kind, "expense")).value,
                                                         DefaultColor, DefaultBudgetLimit)]
    ensures r.1.Some? ==> r.0.accounts == l.accounts
    ensures FindCategoryByName(l.categories, row.category).None? && ParseKind(OrElse(row.kind, "expense")).None? ==>
              r == (l, Some(InvalidKind(OrElse(row.kind, "expense"))))
    ensures row.amount.None? &&
            (FindCategoryByName(l.categories, row.category).Some? || ParseKind(OrElse(row.kind, "expense")).Some?) ==>
              r.1 == Some(UnparsableAmount)
    ensures r.1.None? ==> |r.0.accounts| == |l.accounts|
    ensures r.1.None? && |l.accounts| > 0 ==> r.0.accounts[1..] == l.accounts[1..]
    ensures WellFormed(l) && r.1.None? ==>
              && r.0.transactions[|l.transactions|].categoryId == RowCategory(l, row).id
              && RowCategory(l, row) in r.0.categories
              && (|l.accounts| > 0 ==>
                    r.0.accounts[0].balance == l.accounts[0].balance + Signed(RowCategory(l, row).kind, row.amount.value))
    ensures WellFormed(l) ==> WellFormed(r.0)
  {
    match FindOrCreate(l, row.category, OrElse(row.kind, "expense"))
    case Err(e) => (l, Some(e))
    case Ok((l1, c)) =>
      match row.amount
      case None => (l1, Some(UnparsableAmount))
      case Some(a) =>
        assert FindCategory(l1.categories, c.id).Some?;
        assert c == RowCategory(l, row);
        assert WellFormed(l) ==> FindCategory(l1.categories, c.id) == Some(c) by {
          if WellFormed(l) {
            FindRegistered(l1, c);
          }
        }
        var (l2, res) := AddTransaction(l1, a, row.description, c.id, Some(row.date),
                                        OrElse(row.paymentMethod, DefaultPaymentMethod),
                                        OrElse(row.location, ""), OrElse(row.tags, ""), row.date);
        assert l2.transactions[|l.transactions|] ==
               NewTransaction(l1, a, row.description, c.id, Some(row.date),
                              OrElse(row.paymentMethod, DefaultPaymentMethod),
                              OrElse(row.location, ""), OrElse(row.tags, ""), row.date);
        assert c in l2.categories;
        (l2, None)
  }

  /** A row that goes through changes only the primary account's balance:
      every other column of that account stays as it was. */
  lemma ImportRowAccounts(l: Ledger, row: ImportRow)
    ensures var r := ImportRowStep(l, row);
            WellFormed(l) && r.1.None? && |l.accounts| > 0 ==>
              r.0.accounts[0] == l.accounts[0].(balance := l.accounts[0].balance + Signed(RowCategory(l, row).kind, row.amount.value))
  {
    var r := ImportRowStep(l, row);
    if WellFormed(l) && r.1.None? && |l.accounts| > 0 {
      var res := FindOrCreate(l, row.category, OrElse(row.kind, "expense"));
      assert res.Ok? && row.amount.Some?;
      var l1 := res.value.0;
      var c := res.value.1;
      var a := row.amount.value;
      assert l1.accounts == l.accounts;
      assert c == RowCategory(l, row);
      FindRegistered(l1, c);
      var t2 := AddTransaction(l1, a, row.description, c.id, Some(row.date),
                               OrElse(row.paymentMethod, DefaultPaymentMethod),
                               OrElse(row.location, ""), OrElse(row.tags, ""), row.date);
      assert r.0 == t2.0;
      assert t2.1.Ok?;
    }
  }

  /** import_data over a sequence of rows: stops at the first failing row
      and reports its error; earlier rows stay imported. */
  function ImportRows(l: Ledger, rows: seq<ImportRow>): (r: (Ledger, Option<Error>))
    ensures l.transactions <= r.0.transactions
    ensures l.categories <= r.0.categories
    ensures r.0.budgets == l.budgets && r.0.goals == l.goals
    ensures r.1.None? ==> |r.0.transactions| == |l.transactions| + |rows|
    ensures r.1.Some? ==> |r.0.transactions| < |l.transactions| + |rows|
    ensures WellFormed(l) ==> WellFormed(r.0)
    decreases |rows|
  {
    if |rows| == 0 then (l, None)
    else
      var (l1, err) := ImportRowStep(l, rows[0]);
      if err.Some? then (l1, err)
      else
        ImportRows(l1, rows[1..])
  }

  /** The i-th transaction is imported from the i-th row, for every i. */
  predicate ImportedInOrder(ts: seq<Transaction>, rows: seq<ImportRow>, cats: seq<Category>)
    decreases |rows|
  {
    && |ts| == |rows|
    && (|rows| == 0 || (ImportedAs(ts[0], rows[0], cats) && ImportedInOrder(ts[1..], rows[1..], cats)))
  }

  /** The induction step of ImportRows: the first row's transaction,
      followed by the remaining rows' ones, are the rows' transactions in
      order. */
  lemma ImportedShift(n: nat, l1: Ledger, rows: seq<ImportRow>, after: Ledger)
    requires |rows| > 0 && |l1.transactions| == n + 1
    requires l1.transactions <= after.transactions && l1.categories <= after.categories
    requires ImportedAs(l1.transactions[n], rows[0], l1.categories)
    requires ImportedInOrder(after.transactions[n + 1..], rows[1..], after.categories)
    ensures ImportedInOrder(after.transactions[n..], rows, after.categories)
  {
    assert after.transactions[n] == l1.transactions[n];
    ImportedAsWidens(l1.transactions[n], rows[0], l1.categories, after.categories);
    assert after.transactions[n..][1..] == after.transactions[n + 1..];
  }

  /** When every row goes through, the new transactions are the rows'
      transactions in order. */
  lemma {:induction false} ImportRowsInOrder(l: Ledger, rows: seq<ImportRow>)
    ensures var r := ImportRows(l, rows);
            r.1.None? ==> ImportedInOrder(r.0.transactions[|l.transactions|..], rows, r.0.categories)
    decreases |rows|
  {
    if |rows| > 0 {
      var step := ImportRowStep(l, rows[0]);
      if step.1.None? {
        var r := ImportRows(step.0, rows[1..]);
        assert ImportRows(l, rows) == r;
        ImportRowsInOrder(step.0, rows[1..]);
        if r.1.None? {
          ImportedShift(|l.transactions|, step.0, rows, r.0);
        }
      }
    }
  }

  /** Indexed form of ImportedInOrder. */
  lemma {:induction false} ImportedAt(ts: seq<Transaction>, rows: seq<ImportRow>, cats: seq<Category>, i: nat)
    requires ImportedInOrder(ts, rows, cats) && i < |rows|
    ensures ImportedAs(ts[i], rows[i], cats)
    decreases i
  {
    if i > 0 {
      ImportedAt(ts[1..], rows[1..], cats, i - 1);
    }
  }

  /** When every row goes through, the i-th new transaction is the i-th
      row's: its cells, filed under a category named as in the row. */
  lemma ImportedRowsInOrder(l: Ledger, rows: seq<ImportRow>)
    ensures var r := ImportRows(l, rows);
            r.1.None? ==> forall i :: 0 <= i < |rows| ==>
              ImportedAs(r.0.transactions[|l.transactions| + i], rows[i], r.0.categories)
  {
    var r := ImportRows(l, rows);
    if r.1.None? {
      ImportRowsInOrder(l, rows);
      forall i | 0 <= i < |rows|
        ensures ImportedAs(r.0.transactions[|l.transactions| + i], rows[i], r.0.categories)
      {
        ImportedAt(r.0.transactions[|l.transactions|..], rows, r.0.categories, i);
      }
    }
  }

  /** Filing under a category stays valid as more categories are created. */
  lemma ImportedAsWidens(t: Transaction, row: ImportRow, cats: seq<Category>, more: seq<Category>)
    requires cats <= more && ImportedAs(t, row, cats)
    ensures ImportedAs(t, row, more)
  {
    var c :| c in cats && c.id == t.categoryId && c.name == row.category;
    assert c in more;
  }

  /** Importing a file in two parts: the second part is read from where the
      first left off if the first part went through, and not at all
      otherwise. So the import stops at its first failing row, keeping
      everything the rows before it did. */
  lemma {:induction false} ImportSplit(l: Ledger, a: seq<ImportRow>, b: seq<ImportRow>)
    ensures var first := ImportRows(l, a);
            ImportRows(l, a + b) == if first.1.None? then ImportRows(first.0, b) else first
    decreases |a|
  {
    if |a| == 0 {
      assert a + b == b;
    } else {
      assert (a + b)[0] == a[0];
      assert (a + b)[1..] == a[1..] + b;
      var step := ImportRowStep(l, a[0]);
      if step.1.None? {
        ImportSplit(step.0, a[1..], b);
      }
    }
  }

  /** A failing row adds no transaction of its own and ends the import:
      the rows after it change nothing. */
  lemma FailingRowEndsImport(l: Ledger, a: seq<ImportRow>, row: ImportRow, b: seq<ImportRow>)
    ensures var before := ImportRows(l, a);
            var step := ImportRowStep(before.0, row);
            before.1.None? && step.1.Some? ==>
              && ImportRows(l, a + [row] + b) == step
              && ImportRows(l, a + [row] + b).0.transactions == before.0.transactions
  {
    ImportSplit(l, a, [row] + b);
    assert a + [row] + b == a + ([row] + b);
    var before := ImportRows(l, a);
    assert ([row] + b)[0] == row;
  }

  /** A transaction imported earlier keeps its description of the row
      however many further rows are imported. */
  lemma LaterRowsKeepImported(l: Ledger, rows: seq<ImportRow>, k: nat, row: ImportRow)
    requires k < |l.transactions| && ImportedAs(l.transactions[k], row, l.categories)
    ensures var r := ImportRows(l, rows).0;
            k < |r.transactions| && ImportedAs(r.transactions[k], row, r.categories)
  {
    var r := ImportRows(l, rows).0;
    var t := l.transactions[k];
    assert r.transactions[k] == t;
    var c :| c in l.categories && c.id == t.categoryId && c.name == row.category;
    assert c in r.categories;
  }
}

=== FILE: insights.dfy ===
/** The insight generator: a fixed decision table over the balance summary
    and this month's category spending. Messages are represented by tags
    carrying the figures they quote. */
module InsightGenerator {
  import opened Common
  import opened Dates
  import opened Schema
  import opened Reporting

  datatype Habit = LargestExpense(category: string, total: real)
  datatype Recommendation = ReviewExpenses | IncreaseSavings(rate: real)
  datatype Warning = SpendingExceedsIncome
  datatype Achievement = ExcellentSavings(rate: real) | GoodSavings(rate: real)

  datatype Insights = Insights(
    habits: seq<Habit>,
    recommendations: seq<Recommendation>,
    warnings: seq<Warning>,
    achievements: seq<Achievement>)

  /** `max((cat for cat in spending if cat[3] == 'expense'), key=total,
      default=None)`: the first expense row with the largest total. */
  function TopExpense(spending: seq<CategoryTotal>): (r: Option<CategoryTotal>)
    ensures r.None? <==> forall x :: x in spending ==> x.kind != Expense
    ensures r.Some? ==> r.value in spending && r.value.kind == Expense
    ensures r.Some? ==> forall x :: x in spending && x.kind == Expense ==> x.total <= r.value.total
    ensures r.Some? && spending[0].kind == Expense ==> r.value.total > spending[0].total || r.value == spending[0]
  {
    if |spending| == 0 then None
    else
      var rest := TopExpense(spending[1..]);
      assert forall x :: x in spending <==> x == spending[0] || x in spending[1..];
      if spending[0].kind != Expense then rest
      else if rest.None? || rest.value.total <= spending[0].total then Some(spending[0])
      else rest
  }

  /** Row k carries x, and every expense row before k has a strictly
      smaller total. */
  predicate FirstMaxAt(spending: seq<CategoryTotal>, k: int, x: CategoryTotal) {
    && 0 <= k < |spending| && spending[k] == x
    && forall i :: 0 <= i < k && spending[i].kind == Expense ==> spending[i].total < x.total
  }

  /** The position of the chosen row, found along the recursion. */
  lemma {:induction false} TopExpenseIndex(spending: seq<CategoryTotal>) returns (k: int)
    ensures TopExpense(spending).Some? ==> FirstMaxAt(spending, k, TopExpense(spending).value)
    decreases |spending|
  {
    k := 0;
    if |spending| > 0 {
      var tail := spending[1..];
      var rest := TopExpense(tail);
      if spending[0].kind == Expense && (rest.None? || rest.value.total <= spending[0].total) {
        assert TopExpense(spending) == Some(spending[0]);
      } else if rest.Some? {
        assert TopExpense(spending) == rest;
        var j := TopExpenseIndex(tail);
        k := j + 1;
        forall i | 0 <= i < k && spending[i].kind == Expense
          ensures spending[i].total < rest.value.total
        {
          if i > 0 {
            assert spending[i] == tail[i - 1];
          }
        }
      }
    }
  }

  /** Python's `max` keeps the first maximal element: the chosen row sits at
      some position k, and every expense row before k has a strictly
      smaller total. */
  lemma TopExpenseIsFirstMax(spending: seq<CategoryTotal>)
    ensures TopExpense(spending).Some? ==>
              exists k :: FirstMaxAt(spending, k, TopExpense(spending).value)
  {
    var k := TopExpenseIndex(spending);
  }

  /** monthly_savings / monthly_income * 100 (only evaluated for positive
      income). */
  function Rate(s: Summary): real
    requires s.monthlyIncome > 0.0
  {
    s.monthlySavings / s.monthlyIncome * 100.0
  }

  /** The decision table of get_financial_insights. */
  function Generate(s: Summary, spending: seq<CategoryTotal>): (r: Insights)
    ensures |r.warnings| <= 1 && |r.habits| <= 1 && |r.achievements| <= 1
    ensures r.warnings == (if s.monthlyExpenses > s.monthlyIncome then [SpendingExceedsIncome] else [])
    ensures (ReviewExpenses in r.recommendations) <==> s.monthlyExpenses > s.monthlyIncome
    ensures |r.achievements| + |r.recommendations| - (if s.monthlyExpenses > s.monthlyIncome then 1 else 0)
            == (if s.monthlyIncome > 0.0 then 1 else 0)
    ensures s.monthlyIncome <= 0.0 ==> r.achievements == [] && forall x :: x in r.recommendations ==> x == ReviewExpenses
    ensures |r.habits| == 1 <==> TopExpense(spending).Some?
    ensures |r.habits| == 1 ==> r.habits[0].category == TopExpense(spending).value.name
                                && r.habits[0].total == TopExpense(spending).value.total
  {
    var overspent := s.monthlyExpenses > s.monthlyIncome;
    var warnings := if overspent then [SpendingExceedsIncome] else [];
    var review := if overspent then [ReviewExpenses] else [];
    var tier: (seq<Achievement>, seq<Recommendation>) :=
      if s.monthlyIncome <= 0.0 then ([], [])
      else
        var rate := Rate(s);
        if rate >= 20.0 then ([ExcellentSavings(rate)], [])
        else if rate >= 10.0 then ([GoodSavings(rate)], [])
        else ([], [IncreaseSavings(rate)]);
    var habits := if |spending| > 0 && TopExpense(spending).Some? then
                    [LargestExpense(TopExpense(spending).value.name, TopExpense(spending).value.total)]
                  else [];
    Insights(habits, review + tier.1, warnings, tier.0)
  }

  /** The savings tiers without the division: with positive income, saving
      at least a fifth of it is excellent, at least a tenth good, and less
      than a tenth draws the recommendation to save more. */
  lemma {:induction false} SavingsTiers(s: Summary, spending: seq<CategoryTotal>)
    requires s.monthlyIncome > 0.0
    ensures var r := Generate(s, spending);
            var mi := s.monthlyIncome;
            var ms := s.monthlySavings;
            && (r.achievements == [ExcellentSavings(Rate(s))] <==> 5.0 * ms >= mi)
            && (r.achievements == [GoodSavings(Rate(s))] <==> 10.0 * ms >= mi > 5.0 * ms)
            && (IncreaseSavings(Rate(s)) in r.recommendations <==> 10.0 * ms < mi)
  {
    var mi := s.monthlyIncome;
    var ms := s.monthlySavings;
    var rate := Rate(s);
    assert rate * mi == ms * 100.0;
    assert rate >= 20.0 <==> 5.0 * ms >= mi by {
      if rate >= 20.0 { assert rate * mi >= 20.0 * mi; } else { assert rate * mi < 20.0 * mi; }
    }
    assert rate >= 10.0 <==> 10.0 * ms >= mi by {
      if rate >= 10.0 { assert rate * mi >= 10.0 * mi; } else { assert rate * mi < 10.0 * mi; }
    }
  }

  /** Spending more than one earns this month, with some income, always
      draws both recommendations: review the expenses, and (the savings
      rate being negative) save more. */
  lemma {:induction false} OverspendingRecommendations(s: Summary, spending: seq<CategoryTotal>)
    requires s.monthlySavings == s.monthlyIncome - s.monthlyExpenses
    requires s.monthlyExpenses > s.monthlyIncome > 0.0
    ensures var r := Generate(s, spending);
            && r.recommendations == [ReviewExpenses, IncreaseSavings(Rate(s))]
            && r.warnings == [SpendingExceedsIncome]
            && r.achievements == []
  {
    SavingsTiers(s, spending);
    assert 10.0 * s.monthlySavings < s.monthlyIncome;
  }

  /** get_financial_insights over a ledger: the decision table applied to
      the balance summary and this month's category spending. The warning
      fires iff this month's expenses exceed its income; overspending with
      some income draws both recommendations; the habit names an expense
      category of this month that no other expense category exceeds. */
  function FinancialInsights(l: Ledger, today: Date): (r: Insights)
    ensures var s := BalanceSummary(l, today);
            && (r.warnings == [SpendingExceedsIncome] <==> s.monthlyExpenses > s.monthlyIncome)
            && (s.monthlyExpenses > s.monthlyIncome > 0.0 ==>
                  r.recommendations == [ReviewExpenses, IncreaseSavings(Rate(s))])
    ensures var spending := CategorySpending(l, ThisMonth, today);
            |r.habits| == 1 ==>
              && (exists x :: x in spending && x.kind == Expense && x.name == r.habits[0].category
                              && x.total == r.habits[0].total)
              && forall y :: y in spending && y.kind == Expense ==> y.total <= r.habits[0].total
  {
    var s := BalanceSummary(l, today);
    var spending := CategorySpending(l, ThisMonth, today);
    if s.monthlyExpenses > s.monthlyIncome > 0.0 then
      OverspendingRecommendations(s, spending);
      Generate(s, spending)
    else
      Generate(s, spending)
  }
}

=== FILE: reports.dfy ===
/** The reporting engine: the balance summary, the per-category spending
    breakdown and the monthly report, all recomputed from the joined
    transactions. */
module Reporting {
  import opened Common
  import opened Dates
  import opened Schema
  import opened Sorting
  import opened TransactionLedger

  // ---------------------------------------------------------------------------
  // get_balance_summary

  datatype Summary = Summary(
    totalIncome: real, totalExpenses: real, netWorth: real,
    monthlyIncome: real, monthlyExpenses: real, monthlySavings: real)

  function OfKind(k: Kind): Where {
    Everything.(kind := Some(k))
  }

  function OfKindSince(k: Kind, from: Date): Where {
    Everything.(kind := Some(k), from := Some(from))
  }

  /** get_balance_summary: all-time totals per category kind, and the same
      totals restricted to dates on or after the first of the current month
      (later dates included). */
  function BalanceSummary(l: Ledger, today: Date): (s: Summary)
    ensures s.netWorth == s.totalIncome - s.totalExpenses
    ensures s.monthlySavings == s.monthlyIncome - s.monthlyExpenses
    ensures s.totalIncome == Total(Joined(l), OfKind(Income))
    ensures s.totalExpenses == Total(Joined(l), OfKind(Expense))
    ensures s.monthlyIncome == Total(Joined(l), OfKindSince(Income, FirstOfMonth(today)))
    ensures s.monthlyExpenses == Total(Joined(l), OfKindSince(Expense, FirstOfMonth(today)))
  {
    var ps := Joined(l);
    var ti := Total(ps, OfKind(Income));
    var te := Total(ps, OfKind(Expense));
    var mi := Total(ps, OfKindSince(Income, FirstOfMonth(today)));
    var me := Total(ps, OfKindSince(Expense, FirstOfMonth(today)));
    Summary(ti, te, ti - te, mi, me, mi - me)
  }

  /** A ledger without transactions summarises to all zeros. */
  lemma EmptyLedgerSummary(l: Ledger, today: Date)
    requires l.transactions == []
    ensures BalanceSummary(l, today) == Summary(0.0, 0.0, 0.0, 0.0, 0.0, 0.0)
  {
  }

  /** Appending a transaction under an existing category of kind k adds its
      amount to the all-time total of kind k, and to the monthly total of
      kind k exactly when it is dated in or after the current month; the
      other kind's totals do not move. */
  lemma {:induction false} SummaryAfterAppend(l: Ledger, amount: real, description: string, categoryId: int,
                                              date: Option<Date>, paymentMethod: string, location: string,
                                              tags: string, today: Date)
    requires FindCategory(l.categories, categoryId).Some?
    ensures var k := FindCategory(l.categories, categoryId).value.kind;
            var d := if date.Some? then date.value else today;
            var l' := AddTransaction(l, amount, description, categoryId, date, paymentMethod, location, tags, today).0;
            var s := BalanceSummary(l, today);
            var s' := BalanceSummary(l', today);
            && s'.totalIncome == s.totalIncome + (if k == Income then amount else 0.0)
            && s'.totalExpenses == s.totalExpenses + (if k == Expense then amount else 0.0)
            && s'.netWorth == s.netWorth + Signed(k, amount)
            && s'.monthlyIncome == s.monthlyIncome + (if k == Income && Leq(FirstOfMonth(today), d) then amount else 0.0)
            && s'.monthlyExpenses == s.monthlyExpenses + (if k == Expense && Leq(FirstOfMonth(today), d) then amount else 0.0)
  {
    var c := FindCategory(l.categories, categoryId).value;
    var t := NewTransaction(l, amount, description, categoryId, date, paymentMethod, location, tags, today);
    var l' := AddTransaction(l, amount, description, categoryId, date, paymentMethod, location, tags, today).0;
    JoinAppend(l.categories, l.transactions, t);
    assert Joined(l') == Joined(l) + [Posting(t, c)];
    var p := Posting(t, c);
    TotalAppend(Joined(l), p, OfKind(Income));
    TotalAppend(Joined(l), p, OfKind(Expense));
    TotalAppend(Joined(l), p, OfKindSince(Income, FirstOfMonth(today)));
    TotalAppend(Joined(l), p, OfKindSince(Expense, FirstOfMonth(today)));
  }

  /** Appending never changes `primary balance - net worth`: the balance
      moves by the same signed amount the net worth moves by, and a
      transaction whose category does not resolve moves neither (it is
      invisible to the join and the balance step raises). */
  lemma {:induction false} BalanceTracksNetWorth(l: Ledger, amount: real, description: string, categoryId: int,
                                                 date: Option<Date>, paymentMethod: string, location: string,
                                                 tags: string, today: Date)
    requires |l.accounts| > 0
    ensures var l' := AddTransaction(l, amount, description, categoryId, date, paymentMethod, location, tags, today).0;
            l'.accounts[0].balance - BalanceSummary(l', today).netWorth
              == l.accounts[0].balance - BalanceSummary(l, today).netWorth
  {
    var t := NewTransaction(l, amount, description, categoryId, date, paymentMethod, location, tags, today);
    if FindCategory(l.categories, categoryId).Some? {
      SummaryAfterAppend(l, amount, description, categoryId, date, paymentMethod, location, tags, today);
    } else {
      var l' := AddTransaction(l, amount, description, categoryId, date, paymentMethod, location, tags, today).0;
      JoinAppend(l.categories, l.transactions, t);
      assert Joined(l') == Joined(l);
    }
  }

  /** With non-negative amounts every figure is non-negative and the monthly
      totals never exceed the all-time ones. */
  lemma MonthlyWithinTotal(l: Ledger, today: Date)
    requires forall t :: t in l.transactions ==> t.amount >= 0.0
    ensures var s := BalanceSummary(l, today);
            0.0 <= s.monthlyIncome <= s.totalIncome && 0.0 <= s.monthlyExpenses <= s.totalExpenses
  {
    var ps := Joined(l);
    TotalMonotone(ps, OfKindSince(Income, FirstOfMonth(today)), OfKind(Income));
    TotalMonotone(ps, OfKindSince(Expense, FirstOfMonth(today)), OfKind(Expense));
  }

  // ---------------------------------------------------------------------------
  // get_category_spending

  /** The `period` argument: "monthly", "yearly", and anything else meaning
      all time. */
  datatype SpendingPeriod = ThisMonth | ThisYear | AllTime

  function ParseSpendingPeriod(s: string): (p: SpendingPeriod)
    ensures p == ThisMonth <==> s == "monthly"
    ensures p == ThisYear <==> s == "yearly"
    ensures p == AllTime <==> s != "monthly" && s != "yearly"
  {
    if s == "monthly" then ThisMonth else if s == "yearly" then ThisYear else AllTime
  }

  /** The first day the period counts: the first of this month, the first
      of this year, or 1900-01-01. */
  function PeriodStart(period: SpendingPeriod, today: Date): (d: Date)
    ensures d.day == 1
    ensures Valid(today) ==> Valid(d)
    ensures period != AllTime ==> d.year == today.year
    ensures period != AllTime && Valid(today) ==> Leq(d, today)
    ensures period == ThisMonth ==> d == Date(today.year, today.month, 1)
    ensures period == ThisYear ==> d == Date(today.year, 1, 1)
    ensures period == AllTime ==> d == Date(1900, 1, 1)
  {
    match period
    case ThisMonth => FirstOfMonth(today)
    case ThisYear => FirstOfYear(today)
    case AllTime => Date(1900, 1, 1)
  }

  /** The three windows nest: all time holds this year (from 1900 on),
      which holds this month, which holds today. */
  lemma PeriodsNest(today: Date)
    requires Valid(today) && 1900 <= today.year
    ensures Leq(PeriodStart(AllTime, today), PeriodStart(ThisYear, today))
    ensures Leq(PeriodStart(ThisYear, today), PeriodStart(ThisMonth, today))
    ensures Leq(PeriodStart(ThisMonth, today), today)
  {
  }

  /** One row of a per-category breakdown: name, color, summed amount, type. */
  datatype CategoryTotal = CategoryTotal(name: string, color: string, total: real, kind: Kind)

  function ById(id: int): Where {
    Everything.(categoryId := Some(id))
  }

  /** The row `GROUP BY c.id` produces for category c. */
  function GroupRow(c: Category, ps: seq<Posting>): CategoryTotal {
    CategoryTotal(c.name, c.color, Total(ps, ById(c.id)), c.kind)
  }

  /** A category forms a group iff some posting belongs to it. */
  predicate HasPostings(c: Category, ps: seq<Posting>) {
    |Select(ps, ById(c.id))| > 0
  }

  /** The categories that form a group, in registry order. */
  function WithPostings(cats: seq<Category>, ps: seq<Posting>): (r: seq<Category>)
    ensures forall c :: c in r <==> c in cats && HasPostings(c, ps)
  {
    if |cats| == 0 then []
    else
      assert forall c :: c in cats <==> c == cats[0] || c in cats[1..];
      (if HasPostings(cats[0], ps) then [cats[0]] else []) + WithPostings(cats[1..], ps)
  }

  /** Each category with a posting keeps its multiplicity in the registry,
      and no other category appears. */
  lemma {:induction false} WithPostingsCounts(cats: seq<Category>, ps: seq<Posting>, c: Category)
    ensures multiset(WithPostings(cats, ps))[c] == if HasPostings(c, ps) then multiset(cats)[c] else 0
    decreases |cats|
  {
    if |cats| > 0 {
      var head := if HasPostings(cats[0], ps) then [cats[0]] else [];
      assert WithPostings(cats, ps) == head + WithPostings(cats[1..], ps);
      assert cats == [cats[0]] + cats[1..];
      assert multiset(cats) == multiset{cats[0]} + multiset(cats[1..]);
      WithPostingsCounts(cats[1..], ps, c);
    }
  }

  /** `GROUP BY c.id`: one row per category that has at least one posting,
      in registry order, and no other row. */
  function Group(cats: seq<Category>, ps: seq<Posting>): (r: seq<CategoryTotal>)
    ensures |r| == |WithPostings(cats, ps)|
    ensures forall i :: 0 <= i < |r| ==> r[i] == GroupRow(WithPostings(cats, ps)[i], ps)
  {
    if |cats| == 0 then []
    else if HasPostings(cats[0], ps) then [GroupRow(cats[0], ps)] + Group(cats[1..], ps)
    else Group(cats[1..], ps)
  }

  /** The rows are exactly the group rows of the categories with postings. */
  lemma GroupMembers(cats: seq<Category>, ps: seq<Posting>)
    ensures forall x :: x in Group(cats, ps) <==> exists c :: c in cats && HasPostings(c, ps) && x == GroupRow(c, ps)
  {
    var g := Group(cats, ps);
    var w := WithPostings(cats, ps);
    forall x | x in g ensures exists c :: c in cats && HasPostings(c, ps) && x == GroupRow(c, ps) {
      var i :| 0 <= i < |g| && g[i] == x;
      var c := w[i];
      assert c in w;
      assert c in cats && HasPostings(c, ps) && x == GroupRow(c, ps);
    }
    forall c | c in cats && HasPostings(c, ps) ensures GroupRow(c, ps) in g {
      assert c in w;
      var i :| 0 <= i < |w| && w[i] == c;
      assert g[i] == GroupRow(c, ps);
    }
  }

  /** Filtering keeps category names distinct. */
  lemma {:induction false} WithPostingsNamesDistinct(cats: seq<Category>, ps: seq<Posting>)
    requires NamesDistinct(cats)
    ensures NamesDistinct(WithPostings(cats, ps))
    decreases |cats|
  {
    if |cats| > 0 {
      var tail := cats[1..];
      assert NamesDistinct(tail) by {
        forall i, j | 0 <= i < j < |tail| ensures tail[i].name != tail[j].name {
          assert tail[i] == cats[i + 1] && tail[j] == cats[j + 1];
        }
      }
      var rest := WithPostings(tail, ps);
      WithPostingsNamesDistinct(tail, ps);
      if HasPostings(cats[0], ps) {
        var w := [cats[0]] + rest;
        assert WithPostings(cats, ps) == w;
        forall i, j | 0 <= i < j < |w| ensures w[i].name != w[j].name {
          assert w[j] == rest[j - 1];
          if i == 0 {
            assert rest[j - 1] in rest;
            assert w[j] in tail;
            var k :| 0 <= k < |tail| && tail[k] == w[j];
            assert cats[k + 1] == w[j];
          } else {
            assert w[i] == rest[i - 1];
          }
        }
      } else {
        assert WithPostings(cats, ps) == rest;
      }
    }
  }

  /** With distinct category names, no two rows carry the same name: one
      row per category. */
  lemma GroupNamesDistinct(cats: seq<Category>, ps: seq<Posting>)
    requires NamesDistinct(cats)
    ensures forall i, j :: 0 <= i < j < |Group(cats, ps)| ==> Group(cats, ps)[i].name != Group(cats, ps)[j].name
  {
    var g := Group(cats, ps);
    var w := WithPostings(cats, ps);
    WithPostingsNamesDistinct(cats, ps);
    forall i, j | 0 <= i < j < |g| ensures g[i].name != g[j].name {
      assert g[i].name == w[i].name && g[j].name == w[j].name;
    }
  }

  /** `ORDER BY total DESC`. */
  predicate LargerFirst(a: CategoryTotal, b: CategoryTotal) {
    a.total >= b.total
  }

  lemma LargerFirstIsTotalPreorder()
    ensures TotalPreorder(LargerFirst)
  {
  }

  /** A breakdown ordered by total, largest first. */
  function Breakdown(cats: seq<Category>, ps: seq<Posting>): (r: seq<CategoryTotal>)
    ensures SortedBy(r, LargerFirst)
    ensures multiset(r) == multiset(Group(cats, ps))
    ensures forall x :: x in r <==> exists c :: c in cats && HasPostings(c, ps) && x == GroupRow(c, ps)
  {
    var g := Group(cats, ps);
    GroupMembers(cats, ps);
    LargerFirstIsTotalPreorder();
    var r := SortBy(g, LargerFirst);
    PermutationMembers(r, g);
    r
  }

  /** get_category_spending: for every category with a transaction dated on
      or after the period's start, its name, color, summed amount and type,
      largest total first. */
  function CategorySpending(l: Ledger, period: SpendingPeriod, today: Date): (r: seq<CategoryTotal>)
    ensures SortedBy(r, LargerFirst)
    ensures var ps := Select(Joined(l), Everything.(from := Some(PeriodStart(period, today))));
            && multiset(r) == multiset(Group(l.categories, ps))
            && forall x :: x in r <==> exists c :: c in l.categories && HasPostings(c, ps) && x == GroupRow(c, ps)
  {
    Breakdown(l.categories, Select(Joined(l), Everything.(from := Some(PeriodStart(period, today)))))
  }

  /** Every transaction in the window shows up in the breakdown under its
      category's name and type, in a row whose total is the sum of that
      category's transactions in the window. */
  lemma SpendingCoversWindow(l: Ledger, period: SpendingPeriod, today: Date, p: Posting)
    requires p in Joined(l) && Leq(PeriodStart(period, today), p.txn.date)
    ensures exists x :: x in CategorySpending(l, period, today) && x.name == p.category.name && x.kind == p.category.kind
                        && x.total == Total(Select(Joined(l), Everything.(from := Some(PeriodStart(period, today)))), ById(p.category.id))
  {
    var ps := Select(Joined(l), Everything.(from := Some(PeriodStart(period, today))));
    assert p in ps;
    assert p in Select(ps, ById(p.category.id));
    assert p.category in l.categories && HasPostings(p.category, ps);
    GroupMembers(l.categories, ps);
    var x := GroupRow(p.category, ps);
    assert x in Group(l.categories, ps);
    assert x in multiset(CategorySpending(l, period, today));
  }

  // ---------------------------------------------------------------------------
  // generate_monthly_report

  /** One day of the report's daily series. */
  datatype DailyEntry = DailyEntry(date: Date, expenses: real, income: real)

  datatype Report = Report(
    year: int, month: int,
    income: real, expenses: real, savings: real,
    categories: seq<CategoryTotal>,
    daily: seq<DailyEntry>,
    savingsRate: real)

  /** Whether Python's datetime accepts the next-month-start arithmetic:
      `date(year + 1, 1, 1)` for December, `date(year, month + 1, 1)`
      otherwise (years 1..9999), and the day before it must not precede
      0001-01-01. Month 0 passes. */
  predicate MonthAccepted(year: int, month: int) {
    || (month == 12 && 1 <= year <= 9998)
    || (0 <= month <= 11 && 1 <= year <= 9999 && !(year == 1 && month == 0))
  }

  /** MonthAccepted is exactly the condition under which `datetime.date`
      builds the next month's first day and the day before it within years
      1..9999. */
  lemma MonthAcceptedIsDatetimeRange(year: int, month: int)
    ensures MonthAccepted(year, month) <==>
              var next := if month == 12 then Date(year + 1, 1, 1) else Date(year, month + 1, 1);
              Valid(next) && 1 <= next.year <= 9999 && 1 <= PrevDay(next).year
  {
  }

  /** `t.date BETWEEN start AND end` for the report month. */
  function ReportWindow(year: int, month: int): Where
    requires 0 <= month <= 12
  {
    Everything.(from := Some(Date(year, month, 1)), to := Some(MonthEnd(year, month)))
  }

  /** For a real month the window takes a posting with a valid date iff it
      is dated in that month. */
  lemma ReportWindowIsMonth(year: int, month: int, p: Posting)
    requires 1 <= month <= 12 && Valid(p.txn.date)
    ensures Holds(ReportWindow(year, month), p) <==> p.txn.date.year == year && p.txn.date.month == month
  {
    MonthWindowIsMonth(year, month, p.txn.date);
  }

  function OnDay(d: Date, k: Kind): Where {
    Everything.(kind := Some(k), from := Some(d), to := Some(d))
  }

  function DatesOf(ps: seq<Posting>): (r: seq<Date>)
    ensures |r| == |ps|
    ensures forall i :: 0 <= i < |ps| ==> r[i] == ps[i].txn.date
  {
    if |ps| == 0 then [] else [ps[0].txn.date] + DatesOf(ps[1..])
  }

  lemma LeqIsTotalPreorder()
    ensures TotalPreorder(Leq)
  {
    forall a, b, c ensures (Leq(a, b) || Leq(b, a)) && (Leq(a, b) && Leq(b, c) ==> Leq(a, c)) {
      LeqIsTotalOrder(a, b, c);
    }
  }

  predicate StrictlyIncreasing(s: seq<Date>) {
    forall i, j :: 0 <= i < j < |s| ==> Lt(s[i], s[j])
  }

  /** Drops repeats from an ascending sequence of dates. */
  function Dedup(s: seq<Date>): (r: seq<Date>)
    requires SortedBy(s, Leq)
    ensures StrictlyIncreasing(r)
    ensures forall d :: d in r <==> d in s
    ensures |s| > 0 ==> |r| > 0 && r[0] == s[0]
  {
    if |s| <= 1 then s
    else
      var rest := Dedup(s[1..]);
      assert forall d :: d in s <==> d == s[0] || d in s[1..];
      if s[0] == s[1] then rest
      else
        assert forall d :: d in rest ==> Leq(s[0], d) && d != s[0] by {
          forall d | d in rest ensures Leq(s[0], d) && d != s[0] {
            var k :| 0 <= k < |s[1..]| && s[1..][k] == d;
            assert Leq(s[1], s[k + 1]);
            LeqIsTotalOrder(s[0], s[1], d);
          }
        }
        [s[0]] + rest
  }

  function DayEntry(ps: seq<Posting>, d: Date): DailyEntry {
    DailyEntry(d, Total(ps, OnDay(d, Expense)), Total(ps, OnDay(d, Income)))
  }

  function DayEntries(ps: seq<Posting>, ds: seq<Date>): (r: seq<DailyEntry>)
    ensures |r| == |ds|
    ensures forall i :: 0 <= i < |ds| ==> r[i] == DayEntry(ps, ds[i])
    ensures forall e :: e in r ==> e.date in ds && e == DayEntry(ps, e.date)
    ensures forall d :: d in ds ==> DayEntry(ps, d) in r
  {
    if |ds| == 0 then [] else [DayEntry(ps, ds[0])] + DayEntries(ps, ds[1..])
  }

  /** The distinct dates of the postings, ascending. */
  function DistinctDays(ps: seq<Posting>): (ds: seq<Date>)
    ensures StrictlyIncreasing(ds)
    ensures forall d :: d in ds <==> exists p :: p in ps && p.txn.date == d
  {
    LeqIsTotalPreorder();
    var all := DatesOf(ps);
    var sorted := SortBy(all, Leq);
    PermutationMembers(sorted, all);
    var ds := Dedup(sorted);
    assert forall d :: d in all <==> exists p :: p in ps && p.txn.date == d by {
      forall d ensures d in all <==> exists p :: p in ps && p.txn.date == d {
        if d in all {
          var i :| 0 <= i < |all| && all[i] == d;
          assert ps[i] in ps;
        }
        if exists p :: p in ps && p.txn.date == d {
          var p :| p in ps && p.txn.date == d;
          var i :| 0 <= i < |ps| && ps[i] == p;
          assert all[i] == d;
        }
      }
    }
    ds
  }

  /** `GROUP BY t.date ORDER BY t.date`: one entry per distinct date,
      strictly ascending, with that day's expense and income sums. */
  function Daily(ps: seq<Posting>): (r: seq<DailyEntry>)
    ensures forall i, j :: 0 <= i < j < |r| ==> Lt(r[i].date, r[j].date)
    ensures forall e :: e in r ==> e == DayEntry(ps, e.date) && exists p :: p in ps && p.txn.date == e.date
    ensures forall p :: p in ps ==> exists e :: e in r && e.date == p.txn.date
  {
    var ds := DistinctDays(ps);
    var r := DayEntries(ps, ds);
    assert forall p :: p in ps ==> DayEntry(ps, p.txn.date) in r;
    r
  }

  /** savings / income * 100, or 0 when there is no positive income. */
  function SavingsRate(income: real, savings: real): (rate: real)
    ensures income > 0.0 ==> rate * income == savings * 100.0
    ensures income <= 0.0 ==> rate == 0.0
  {
    if income > 0.0 then savings / income * 100.0 else 0.0
  }

  /** generate_monthly_report: totals, savings, savings rate, the category
      breakdown and the daily series for the days 1..last of the month.
      Fails where Python's datetime raises. */
  function MonthlyReport(l: Ledger, year: int, month: int): (r: Result<Report>)
    ensures r.Err? <==> !MonthAccepted(year, month)
    ensures r.Err? ==> r.error == InvalidMonth(year, month)
    ensures r.Ok? ==>
              var ps := Select(Joined(l), ReportWindow(year, month));
              && r.value.year == year && r.value.month == month
              && r.value.income == Total(ps, OfKind(Income))
              && r.value.expenses == Total(ps, OfKind(Expense))
              && r.value.savings == r.value.income - r.value.expenses
              && (r.value.income <= 0.0 ==> r.value.savingsRate == 0.0)
              && r.value.savingsRate == SavingsRate(r.value.income, r.value.savings)
              && r.value.categories == Breakdown(l.categories, ps)
              && r.value.daily == Daily(ps)
  {
    if !MonthAccepted(year, month) then Err(InvalidMonth(year, month))
    else
      var ps := Select(Joined(l), ReportWindow(year, month));
      var income := Total(ps, OfKind(Income));
      var expenses := Total(ps, OfKind(Expense));
      var savings := income - expenses;
      Ok(Report(year, month, income, expenses, savings, Breakdown(l.categories, ps), Daily(ps),
                SavingsRate(income, savings)))
  }
}

=== FILE: schema.dfy ===
/** The five relations the tracker keeps (categories, transactions, budgets,
    goals, accounts), as immutable values, together with the two reading
    primitives every report is built from: the join of transactions with
    their categories, and the selection/summation that the SQL WHERE and
    SUM clauses perform.

    Row ids are AUTOINCREMENT keys and no operation deletes a row, so the
    row with id k is the k-th inserted one: every relation is a sequence in
    insertion order and a new row gets id |relation| + 1. The creation
    stamps are not stored: where the transaction query orders by creation
    time, the id stands in for it, which also breaks ties between rows
    stamped in the same second. */
module Schema {
  import opened Common
  import opened Dates

  datatype Kind = Income | Expense

  datatype Category = Category(id: nat, name: string, kind: Kind, color: string, budgetLimit: real)

  /** `categoryId` is whatever the caller passed: no foreign key is enforced. */
  datatype Transaction = Transaction(
    id: nat, amount: real, description: string, categoryId: int, date: Date,
    paymentMethod: string, location: string, tags: string)

  datatype Period = Weekly | Monthly | Yearly

  datatype Budget = Budget(
    id: nat, categoryId: int, amount: real, period: Period,
    startDate: Date, endDate: Date, alertThreshold: real)

  datatype Goal = Goal(
    id: nat, name: string, targetAmount: real, currentAmount: real,
    targetDate: Option<Date>, description: string, priority: int, achieved: bool)

  datatype AccountKind = Checking | Savings | Credit | Investment

  datatype Account = Account(id: nat, name: string, kind: AccountKind, balance: real, currency: string, bank: string)

  datatype Ledger = Ledger(
    categories: seq<Category>,
    transactions: seq<Transaction>,
    budgets: seq<Budget>,
    goals: seq<Goal>,
    accounts: seq<Account>)

  /** The CHECK constraint on categories.type. */
  function ParseKind(s: string): (r: Option<Kind>)
    ensures r == Some(Income) <==> s == "income"
    ensures r == Some(Expense) <==> s == "expense"
    ensures r.None? <==> s != "income" && s != "expense"
  {
    if s == "income" then Some(Income)
    else if s == "expense" then Some(Expense)
    else None
  }

  /** The CHECK constraint on budgets.period. */
  function ParsePeriod(s: string): (r: Option<Period>)
    ensures r.None? <==> s != "weekly" && s != "monthly" && s != "yearly"
    ensures r == Some(Weekly) <==> s == "weekly"
    ensures r == Some(Monthly) <==> s == "monthly"
    ensures r == Some(Yearly) <==> s == "yearly"
  {
    if s == "weekly" then Some(Weekly)
    else if s == "monthly" then Some(Monthly)
    else if s == "yearly" then Some(Yearly)
    else None
  }

  /** No two categories share a name (the UNIQUE constraint). */
  predicate NamesDistinct(cats: seq<Category>) {
    forall i, j :: 0 <= i < j < |cats| ==> cats[i].name != cats[j].name
  }

  /** Ids are insertion positions and category names are UNIQUE. */
  ghost predicate WellFormed(l: Ledger) {
    && (forall i :: 0 <= i < |l.categories| ==> l.categories[i].id == i + 1)
    && NamesDistinct(l.categories)
    && (forall i :: 0 <= i < |l.transactions| ==> l.transactions[i].id == i + 1)
    && (forall i :: 0 <= i < |l.budgets| ==> l.budgets[i].id == i + 1)
    && (forall i :: 0 <= i < |l.goals| ==> l.goals[i].id == i + 1)
  }

  /** `SELECT ... FROM categories WHERE id = ?`: the first row with that id. */
  function FindCategory(cats: seq<Category>, id: int): (r: Option<Category>)
    ensures r.Some? ==> r.value in cats && r.value.id == id
    ensures r.None? <==> forall c :: c in cats ==> c.id != id
  {
    if |cats| == 0 then None
    else if cats[0].id == id then Some(cats[0])
    else FindCategory(cats[1..], id)
  }

  /** `SELECT id FROM categories WHERE name = ?`, first row. */
  function FindCategoryByName(cats: seq<Category>, name: string): (r: Option<Category>)
    ensures r.Some? ==> r.value in cats && r.value.name == name
    ensures r.None? <==> forall c :: c in cats ==> c.name != name
  {
    if |cats| == 0 then None
    else if cats[0].name == name then Some(cats[0])
    else FindCategoryByName(cats[1..], name)
  }

  /** Under WellFormed the category with id k sits at position k - 1. */
  lemma {:induction false} FindCategoryById(l: Ledger, id: int)
    requires WellFormed(l)
    ensures 1 <= id <= |l.categories| ==> FindCategory(l.categories, id) == Some(l.categories[id - 1])
    ensures !(1 <= id <= |l.categories|) ==> FindCategory(l.categories, id).None?
  {
    if 1 <= id <= |l.categories| {
      var r := FindCategory(l.categories, id);
      assert r.Some? by {
        assert l.categories[id - 1] in l.categories;
      }
      var k :| 0 <= k < |l.categories| && l.categories[k] == r.value;
    }
  }

  /** Under WellFormed a registered category is the one its id finds. */
  lemma FindRegistered(l: Ledger, c: Category)
    requires WellFormed(l) && c in l.categories
    ensures FindCategory(l.categories, c.id) == Some(c)
  {
    var i :| 0 <= i < |l.categories| && l.categories[i] == c;
    FindCategoryById(l, c.id);
  }

  /** A transaction joined with its category (`JOIN categories c ON
      t.category_id = c.id`). */
  datatype Posting = Posting(txn: Transaction, category: Category)

  /** The join: transactions whose category id does not resolve take no part
      in any read. Order of the transactions is kept. */
  function Join(cats: seq<Category>, txns: seq<Transaction>): (r: seq<Posting>)
    ensures |r| <= |txns|
    ensures forall p :: p in r ==> p.txn in txns && p.category in cats && p.category.id == p.txn.categoryId
    ensures forall t :: t in txns && FindCategory(cats, t.categoryId).Some? ==>
              Posting(t, FindCategory(cats, t.categoryId).value) in r
  {
    if |txns| == 0 then []
    else
      var rest := Join(cats, txns[1..]);
      assert forall t :: t in txns ==> t == txns[0] || t in txns[1..];
      match FindCategory(cats, txns[0].categoryId)
      case Some(c) => [Posting(txns[0], c)] + rest
      case None => rest
  }

  function Joined(l: Ledger): seq<Posting> {
    Join(l.categories, l.transactions)
  }

  lemma {:induction false} JoinAppend(cats: seq<Category>, txns: seq<Transaction>, t: Transaction)
    ensures Join(cats, txns + [t]) ==
            Join(cats, txns) + (match FindCategory(cats, t.categoryId)
                                case Some(c) => [Posting(t, c)]
                                case None => [])
  {
    if |txns| == 0 {
      assert txns + [t] == [t];
    } else {
      assert (txns + [t])[1..] == txns[1..] + [t];
      JoinAppend(cats, txns[1..], t);
    }
  }

  /** A conjunction of the WHERE conditions the tracker's queries use; a
      `None` field imposes nothing. */
  datatype Where = Where(
    kind: Option<Kind>,
    from: Option<Date>,         // t.date >= from
    to: Option<Date>,           // t.date <= to
    categoryId: Option<int>,    // t.category_id = id  (c.id in GROUP BY)
    categoryName: Option<string>) // c.name = name

  const Everything := Where(None, None, None, None, None)

  predicate Holds(w: Where, p: Posting) {
    && (w.kind.None? || p.category.kind == w.kind.value)
    && (w.from.None? || Leq(w.from.value, p.txn.date))
    && (w.to.None? || Leq(p.txn.date, w.to.value))
    && (w.categoryId.None? || p.txn.categoryId == w.categoryId.value)
    && (w.categoryName.None? || p.category.name == w.categoryName.value)
  }

  /** The postings satisfying `w`, order kept. */
  function Select(ps: seq<Posting>, w: Where): (r: seq<Posting>)
    ensures |r| <= |ps|
    ensures forall p :: p in r <==> p in ps && Holds(w, p)
  {
    if |ps| == 0 then []
    else if Holds(w, ps[0]) then [ps[0]] + Select(ps[1..], w)
    else Select(ps[1..], w)
  }

  lemma {:induction false} SelectAppend(a: seq<Posting>, b: seq<Posting>, w: Where)
    ensures Select(a + b, w) == Select(a, w) + Select(b, w)
  {
    if |a| == 0 {
      assert a + b == b;
    } else {
      assert (a + b)[1..] == a[1..] + b;
      SelectAppend(a[1..], b, w);
    }
  }

  /** Two conditions that agree on every posting select the same postings. */
  lemma {:induction false} SelectAgree(ps: seq<Posting>, w1: Where, w2: Where)
    requires forall p :: p in ps ==> (Holds(w1, p) <==> Holds(w2, p))
    ensures Select(ps, w1) == Select(ps, w2)
  {
    if |ps| > 0 {
      assert ps[0] in ps;
      assert forall p :: p in ps[1..] ==> p in ps;
      SelectAgree(ps[1..], w1, w2);
    }
  }

  function SumAmount(ps: seq<Posting>): real {
    if |ps| == 0 then 0.0 else ps[0].txn.amount + SumAmount(ps[1..])
  }

  lemma {:induction false} SumAppend(a: seq<Posting>, b: seq<Posting>)
    ensures SumAmount(a + b) == SumAmount(a) + SumAmount(b)
  {
    if |a| == 0 {
      assert a + b == b;
    } else {
      assert (a + b)[1..] == a[1..] + b;
      SumAppend(a[1..], b);
    }
  }

  /** `COALESCE(SUM(t.amount), 0) ... WHERE w`. */
  function Total(ps: seq<Posting>, w: Where): real {
    SumAmount(Select(ps, w))
  }

  /** Appending one posting adds its amount to every total whose condition
      it satisfies and leaves the others alone. */
  lemma TotalAppend(ps: seq<Posting>, p: Posting, w: Where)
    ensures Total(ps + [p], w) == Total(ps, w) + (if Holds(w, p) then p.txn.amount else 0.0)
  {
    SelectAppend(ps, [p], w);
    SumAppend(Select(ps, w), Select([p], w));
  }

  /** A total over no postings is zero (the COALESCE default). */
  lemma TotalEmpty(w: Where)
    ensures Total([], w) == 0.0
  {
  }

  /** A total over non-negative amounts is non-negative and never exceeds the
      total under a weaker condition. */
  lemma {:induction false} TotalMonotone(ps: seq<Posting>, strong: Where, weak: Where)
    requires forall p :: p in ps ==> p.txn.amount >= 0.0
    requires forall p :: p in ps && Holds(strong, p) ==> Holds(weak, p)
    ensures 0.0 <= Total(ps, strong) <= Total(ps, weak)
  {
    if |ps| > 0 {
      assert ps[0] in ps;
      assert forall p :: p in ps[1..] ==> p in ps;
      TotalMonotone(ps[1..], strong, weak);
    }
  }
}

=== FILE: sorting.dfy ===
/** Ordering and sequence helpers used by the queries that carry an
    ORDER BY or a LIMIT. Sorting is a stable insertion sort over any total
    preorder; SQL promises no particular order among ties, so only the
    sortedness and the permutation are stated. */
module Sorting {

  ghost predicate TotalPreorder<T(!new)>(leq: (T, T) -> bool) {
    && (forall a, b :: leq(a, b) || leq(b, a))
    && (forall a, b, c :: leq(a, b) && leq(b, c) ==> leq(a, c))
  }

  predicate SortedBy<T>(s: seq<T>, leq: (T, T) -> bool) {
    forall i, j :: 0 <= i < j < |s| ==> leq(s[i], s[j])
  }

  lemma HeadBelowAll<T(!new)>(x: T, s: seq<T>, rest: seq<T>, leq: (T, T) -> bool)
    requires TotalPreorder(leq)
    requires |s| > 0 && SortedBy(s, leq) && !leq(x, s[0])
    requires multiset(rest) == multiset(s[1..]) + multiset{x}
    ensures forall y :: y in rest ==> leq(s[0], y)
  {
    forall y | y in rest
      ensures leq(s[0], y)
    {
      assert y in multiset(rest);
      if y != x {
        assert y in multiset(s[1..]);
        var k :| 0 <= k < |s[1..]| && s[1..][k] == y;
        assert s[k + 1] == y;
      }
    }
  }

  function Insert<T(!new)>(x: T, s: seq<T>, leq: (T, T) -> bool): (r: seq<T>)
    requires TotalPreorder(leq)
    requires SortedBy(s, leq)
    ensures multiset(r) == multiset(s) + multiset{x}
    ensures SortedBy(r, leq)
  {
    if |s| == 0 then [x]
    else if leq(x, s[0]) then [x] + s
    else
      var rest := Insert(x, s[1..], leq);
      assert s == [s[0]] + s[1..];
      HeadBelowAll(x, s, rest, leq);
      [s[0]] + rest
  }

  /** Insertion sort: an ordered permutation of `s`. */
  function SortBy<T(!new)>(s: seq<T>, leq: (T, T) -> bool): (r: seq<T>)
    requires TotalPreorder(leq)
    ensures multiset(r) == multiset(s)
    ensures SortedBy(r, leq)
  {
    if |s| == 0 then []
    else
      assert s == [s[0]] + s[1..];
      Insert(s[0], SortBy(s[1..], leq), leq)
  }

  /** A permutation has the same members. */
  lemma PermutationMembers<T>(a: seq<T>, b: seq<T>)
    requires multiset(a) == multiset(b)
    ensures forall x :: x in a <==> x in b
  {
    forall x ensures x in a <==> x in b {
      assert x in a <==> x in multiset(a);
      assert x in b <==> x in multiset(b);
    }
  }

  /** The first `n` elements, or all of them when there are fewer
      (SQL's LIMIT n). */
  function Take<T>(s: seq<T>, n: nat): (r: seq<T>)
    ensures |r| <= n && |r| <= |s|
    ensures |r| == n || |r| == |s|
    ensures r == s[..|r|]
  {
    if n < |s| then s[..n] else s
  }

  lemma SortedPrefix<T>(s: seq<T>, k: nat, leq: (T, T) -> bool)
    requires k <= |s| && SortedBy(s, leq)
    ensures SortedBy(s[..k], leq)
  {
  }
}

=== FILE: transactions.dfy ===
/** The transaction ledger: appending a transaction (with its balance
    side effect on the primary account) and the filtered, ordered query. */
module TransactionLedger {
  import opened Common
  import opened Dates
  import opened Schema
  import opened Sorting
  import opened CategoryRegistry

  /** Default argument values of add_transaction. */
  const DefaultPaymentMethod: string := "cash"

  /** The delta a transaction posts to an account: `+amount` for an income
      category, `-amount` for anything else. */
  function Signed(k: Kind, amount: real): (r: real)
    ensures k == Income ==> r == amount
    ensures k == Expense ==> r == -amount
  {
    if k == Income then amount else -amount
  }

  /** update_balance_after_transaction. Looks up the category's type (a
      missing category makes `fetchone()[0]` raise), then, if any account
      exists, posts the signed amount to the row `SELECT id FROM accounts
      LIMIT 1` yields. That query has no ORDER BY; the model takes the row
      it yields to be the first in insertion order, `accounts[0]`. With no
      account it changes nothing. */
  function UpdateBalance(l: Ledger, amount: real, categoryId: int): (r: Result<Ledger>)
    ensures r.Err? <==> FindCategory(l.categories, categoryId).None?
    ensures r.Err? ==> r.error == UnknownCategory(categoryId)
    ensures r.Ok? ==> r.value.categories == l.categories && r.value.transactions == l.transactions
    ensures r.Ok? ==> r.value.budgets == l.budgets && r.value.goals == l.goals
    ensures r.Ok? ==> |r.value.accounts| == |l.accounts|
    ensures r.Ok? && |l.accounts| > 0 ==>
              && r.value.accounts[0] == l.accounts[0].(balance := l.accounts[0].balance +
                                                       Signed(FindCategory(l.categories, categoryId).value.kind, amount))
              && r.value.accounts[1..] == l.accounts[1..]
    ensures r.Ok? && |l.accounts| == 0 ==> r.value == l
  {
    match FindCategory(l.categories, categoryId)
    case None => Err(UnknownCategory(categoryId))
    case Some(c) =>
      if |l.accounts| == 0 then Ok(l)
      else
        var a := l.accounts[0];
        Ok(l.(accounts := [a.(balance := a.balance + Signed(c.kind, amount))] + l.accounts[1..]))
  }

  /** The row add_transaction inserts: the next id, and today's date when no
      date is given. */
  function NewTransaction(l: Ledger, amount: real, description: string, categoryId: int,
                          date: Option<Date>, paymentMethod: string, location: string,
                          tags: string, today: Date): Transaction
  {
    Transaction(|l.transactions| + 1, amount, description, categoryId,
                if date.Some? then date.value else today, paymentMethod, location, tags)
  }

  /** add_transaction, as written: the row is inserted and committed first,
      then the balance update runs. An unknown category id therefore raises
      only after the row has been stored, and the amount is never checked.
      Returns the new state and the new id or the error. */
  function AddTransaction(l: Ledger, amount: real, description: string, categoryId: int,
                          date: Option<Date>, paymentMethod: string, location: string,
                          tags: string, today: Date): (r: (Ledger, Result<nat>))
    ensures var t := NewTransaction(l, amount, description, categoryId, date, paymentMethod, location, tags, today);
            && r.0.transactions == l.transactions + [t]
            && t.amount == amount && t.categoryId == categoryId
            && (date.None? ==> t.date == today)
            && (date.Some? ==> t.date == date.value)
    ensures r.0.categories == l.categories && r.0.budgets == l.budgets && r.0.goals == l.goals
    ensures r.1.Ok? <==> FindCategory(l.categories, categoryId).Some?
    ensures r.1.Ok? ==> r.1.value == |l.transactions| + 1
    ensures |r.0.accounts| == |l.accounts|
    ensures r.1.Ok? && |l.accounts| > 0 ==>
              && r.0.accounts[0].balance == l.accounts[0].balance +
                                            Signed(FindCategory(l.categories, categoryId).value.kind, amount)
              && r.0.accounts[0].id == l.accounts[0].id
              && r.0.accounts[1..] == l.accounts[1..]
    ensures r.1.Ok? && |l.accounts| > 0 ==>
              r.0.accounts[0] == l.accounts[0].(balance := l.accounts[0].balance +
                                                Signed(FindCategory(l.categories, categoryId).value.kind, amount))
    ensures r.1.Err? || |l.accounts| == 0 ==> r.0.accounts == l.accounts
    ensures WellFormed(l) ==> WellFormed(r.0)
  {
    var t := NewTransaction(l, amount, description, categoryId, date, paymentMethod, location, tags, today);
    var stored := l.(transactions := l.transactions + [t]);
    match UpdateBalance(stored, amount, categoryId)
    case Ok(l') => (l', Ok(t.id))
    case Err(e) => (stored, Err(e))
  }

  /** add_transaction as evidently intended: an unknown category is
      rejected before anything is stored. */
  function AddTransactionChecked(l: Ledger, amount: real, description: string, categoryId: int,
                                 date: Option<Date>, paymentMethod: string, location: string,
                                 tags: string, today: Date): (r: (Ledger, Result<nat>))
    ensures r.1.Err? <==> FindCategory(l.categories, categoryId).None?
    ensures r.1.Err? ==> r.0 == l
    ensures r.1.Ok? ==> r == AddTransaction(l, amount, description, categoryId, date, paymentMethod, location, tags, today)
  {
    if FindCategory(l.categories, categoryId).None? then (l, Err(UnknownCategory(categoryId)))
    else AddTransaction(l, amount, description, categoryId, date, paymentMethod, location, tags, today)
  }

  /** The as-written append leaves a committed transaction behind when its
      category does not exist: with no categories at all, category id 99
      fails yet the ledger has grown by one row. */
  lemma UnknownCategoryLeavesOrphan(today: Date)
    ensures var l := Ledger([], [], [], [], []);
            var r := AddTransaction(l, 50.0, "lunch", 99, None, DefaultPaymentMethod, "", "", today);
            r.1 == Err(UnknownCategory(99)) && |r.0.transactions| == 1 && r.0 != l
  {
  }

  /** The orphan does not stay hidden: once a category takes the id it
      names, the failed transaction joins it and every read counts it.
      With the checked append the failed call leaves nothing behind. */
  lemma OrphanSurfacesLater(today: Date)
    ensures var l := Ledger([], [], [], [], []);
            var failed := AddTransaction(l, 50.0, "lunch", 1, None, DefaultPaymentMethod, "", "", today);
            var checked := AddTransactionChecked(l, 50.0, "lunch", 1, None, DefaultPaymentMethod, "", "", today);
            && failed.1.Err? && |Joined(CreateCategory(failed.0, "Food", Expense).0)| == 1
            && checked.1.Err? && |Joined(CreateCategory(checked.0, "Food", Expense).0)| == 0
  {
    var l := Ledger([], [], [], [], []);
    var failed := AddTransaction(l, 50.0, "lunch", 1, None, DefaultPaymentMethod, "", "", today);
    var l1 := CreateCategory(failed.0, "Food", Expense).0;
    assert Joined(l1) == [Posting(failed.0.transactions[0], l1.categories[0])];
  }

  // ---------------------------------------------------------------------------
  // get_transactions

  /** One result row: the transaction's columns with its category's name
      and type in place of the category id. */
  datatype TransactionView = TransactionView(
    id: nat, amount: real, description: string, categoryName: string, kind: Kind,
    date: Date, paymentMethod: string, location: string, tags: string)

  function View(p: Posting): TransactionView {
    TransactionView(p.txn.id, p.txn.amount, p.txn.description, p.category.name, p.category.kind,
                    p.txn.date, p.txn.paymentMethod, p.txn.location, p.txn.tags)
  }

  function Views(ps: seq<Posting>): (r: seq<TransactionView>)
    ensures |r| == |ps|
    ensures forall i :: 0 <= i < |ps| ==> r[i] == View(ps[i])
  {
    if |ps| == 0 then [] else [View(ps[0])] + Views(ps[1..])
  }

  /** The optional arguments of get_transactions. */
  datatype QueryFilter = QueryFilter(startDate: Option<Date>, endDate: Option<Date>,
                                     categoryId: Option<int>, limit: Option<int>)

  const NoFilter := QueryFilter(None, None, None, None)

  /** The WHERE clause: a falsy argument (absent, or a category id of 0)
      adds no condition. */
  function ConditionOf(q: QueryFilter): (w: Where)
    ensures forall p :: Holds(w, p) <==>
              && (q.startDate.Some? ==> Leq(q.startDate.value, p.txn.date))
              && (q.endDate.Some? ==> Leq(p.txn.date, q.endDate.value))
              && (q.categoryId.Some? && q.categoryId.value != 0 ==> p.txn.categoryId == q.categoryId.value)
  {
    Where(None, q.startDate, q.endDate,
          if q.categoryId.Some? && q.categoryId.value != 0 then q.categoryId else None,
          None)
  }

  /** The LIMIT: a falsy limit (absent or 0) adds none, and SQLite reads a
      negative LIMIT as no limit. */
  function LimitOf(q: QueryFilter): (r: Option<nat>)
    ensures r.Some? <==> q.limit.Some? && q.limit.value > 0
    ensures r.Some? ==> r.value == q.limit.value
  {
    if q.limit.Some? && q.limit.value > 0 then Some(q.limit.value as nat) else None
  }

  /** `ORDER BY t.date DESC, t.created_at DESC`, with the id standing in
      for the creation stamp. */
  predicate NewerFirst(a: TransactionView, b: TransactionView) {
    Lt(b.date, a.date) || (a.date == b.date && a.id >= b.id)
  }

  lemma NewerFirstIsTotalPreorder()
    ensures TotalPreorder(NewerFirst)
  {
  }

  /** The rows the WHERE clause keeps, before ordering and LIMIT. */
  function Matching(l: Ledger, q: QueryFilter): seq<TransactionView> {
    Views(Select(Joined(l), ConditionOf(q)))
  }

  /** Each matching row is the view of a joined transaction that satisfies
      every supplied filter. */
  lemma MatchingRowsSatisfyFilter(l: Ledger, q: QueryFilter, v: TransactionView)
    requires v in Matching(l, q)
    ensures exists p :: p in Joined(l) && Holds(ConditionOf(q), p) && v == View(p)
  {
    var sel := Select(Joined(l), ConditionOf(q));
    var k :| 0 <= k < |Matching(l, q)| && Matching(l, q)[k] == v;
    assert sel[k] in sel;
  }

  /** The matching rows, most recent first. */
  function Ordered(l: Ledger, q: QueryFilter): (r: seq<TransactionView>)
    ensures multiset(r) == multiset(Matching(l, q))
    ensures SortedBy(r, NewerFirst)
  {
    NewerFirstIsTotalPreorder();
    SortBy(Matching(l, q), NewerFirst)
  }

  /** get_transactions: the joined transactions satisfying every supplied
      filter, most recent first, capped at a positive limit. */
  function GetTransactions(l: Ledger, q: QueryFilter): (r: seq<TransactionView>)
    ensures forall v :: v in r ==> exists p :: p in Joined(l) && Holds(ConditionOf(q), p) && v == View(p)
    ensures forall v :: v in r ==>
              && (q.startDate.Some? ==> Leq(q.startDate.value, v.date))
              && (q.endDate.Some? ==> Leq(v.date, q.endDate.value))
    ensures SortedBy(r, NewerFirst)
    ensures LimitOf(q).Some? ==> |r| <= LimitOf(q).value
    ensures LimitOf(q).None? ==> multiset(r) == multiset(Matching(l, q))
  {
    var sorted := Ordered(l, q);
    var r := if LimitOf(q).Some? then Take(sorted, LimitOf(q).value) else sorted;
    SortedPrefix(sorted, |r|, NewerFirst);
    PrefixRowsMatch(l, q, sorted, r);
    r
  }

  lemma PrefixRowsMatch(l: Ledger, q: QueryFilter, sorted: seq<TransactionView>, r: seq<TransactionView>)
    requires multiset(sorted) == multiset(Matching(l, q))
    requires r <= sorted
    ensures forall v :: v in r ==> exists p :: p in Joined(l) && Holds(ConditionOf(q), p) && v == View(p)
  {
    forall v | v in r
      ensures exists p :: p in Joined(l) && Holds(ConditionOf(q), p) && v == View(p)
    {
      var k :| 0 <= k < |r| && r[k] == v;
      assert sorted[k] == v;
      assert v in multiset(sorted);
      assert v in multiset(Matching(l, q));
      MatchingRowsSatisfyFilter(l, q, v);
    }
  }

  /** A limit only truncates: the limited result is a prefix of the
      unlimited one, as long as the limit allows. */
  lemma LimitIsPrefix(l: Ledger, q: QueryFilter)
    requires LimitOf(q).Some?
    ensures var all := GetTransactions(l, q.(limit := None));
            var r := GetTransactions(l, q);
            r == all[..|r|] && |r| == if LimitOf(q).value < |all| then LimitOf(q).value else |all|
  {
  }

  /** A falsy filter is no filter: category id 0 selects like no category
      id, and a limit of zero or below caps nothing. */
  lemma FalsyFiltersAreAbsent(l: Ledger, q: QueryFilter)
    ensures GetTransactions(l, q.(categoryId := Some(0))) == GetTransactions(l, q.(categoryId := None))
    ensures q.limit.Some? && q.limit.value <= 0 ==> GetTransactions(l, q) == GetTransactions(l, q.(limit := None))
  {
    assert ConditionOf(q.(categoryId := Some(0))) == ConditionOf(q.(categoryId := None));
    assert LimitOf(q.(categoryId := Some(0))) == LimitOf(q.(categoryId := None));
    if q.limit.Some? && q.limit.value <= 0 {
      assert ConditionOf(q) == ConditionOf(q.(limit := None));
      assert LimitOf(q) == LimitOf(q.(limit := None));
    }
  }

  /** An unfiltered query returns every joined transaction. */
  lemma UnfilteredQueryReturns(l: Ledger, p: Posting)
    requires p in Joined(l)
    ensures View(p) in GetTransactions(l, NoFilter)
  {
    var sel := Select(Joined(l), ConditionOf(NoFilter));
    assert Holds(ConditionOf(NoFilter), p);
    assert p in sel;
    var k :| 0 <= k < |sel| && sel[k] == p;
    assert Matching(l, NoFilter)[k] == View(p);
    assert View(p) in multiset(Matching(l, NoFilter));
    assert LimitOf(NoFilter).None?;
    assert View(p) in multiset(GetTransactions(l, NoFilter));
  }

  /** Every transaction appended under an existing category is returned by
      an unfiltered query, with its amount unchanged. */
  lemma AppendedIsQueried(l: Ledger, amount: real, description: string, categoryId: int,
                          date: Option<Date>, paymentMethod: string, location: string,
                          tags: string, today: Date)
    requires FindCategory(l.categories, categoryId).Some?
    ensures var r := AddTransaction(l, amount, description, categoryId, date, paymentMethod, location, tags, today);
            exists v :: v in GetTransactions(r.0, NoFilter) && v.id == r.1.value && v.amount == amount
  {
    var r := AddTransaction(l, amount, description, categoryId, date, paymentMethod, location, tags, today);
    var t := NewTransaction(l, amount, description, categoryId, date, paymentMethod, location, tags, today);
    var c := FindCategory(l.categories, categoryId).value;
    assert r.0.categories == l.categories && r.1 == Ok(t.id);
    assert t in r.0.transactions;
    var p := Posting(t, c);
    assert p in Joined(r.0);
    UnfilteredQueryReturns(r.0, p);
    assert View(p).id == r.1.value && View(p).amount == amount;
  }
}
